=== FILE: README.md ===
# excel-lambda-optimizer, modelled in Dafny

`lambdaOptimizer(text, options)` reformats a spreadsheet LAMBDA formula.
It runs as a pipeline of passes over the raw characters. Every pass tracks
string literals by toggling an "escape" flag on each `"`.

1. `initializreText` strips `//` comments and blanks. It joins the lines
   and cuts the text to start at the first `LAMBDA`, with a leading `=`.
2. `breakArgs` visits every `(` outside a literal. It finds the function
   name before the paren (`getFunctionName`) and the balanced span after it
   (`getFunctionValue`).
   - If the name has no rule, it is only upper-cased.
   - If it has a rule, the arguments are split on top-level commas
     (`splitArgs`) and trimmed. They are rebuilt with the line breaks the
     rule asks for.
   - The identifiers the rule names are collected. Those of the first
     LAMBDA go to a separate `firstKeys` list when `skipFirstLAMBDA` is
     set.
3. Readable mode:
   - `indentLines` indents each line by its paren depth (`isOpen`).
   - `insertSpaces` replaces the first matching spacing key at each
     position outside a literal.
4. Minify mode:
   - `replaceKeys` renames every captured identifier that starts a token
     to a column code (`numberToColumn`: A, B, …, Z, AA, …).
   - Codes are handed out in order, skipping the upper-cased `firstKeys`
     (`createNewKeys`).
   - `deleteBreak` then removes every line break outside a literal.

The model is one Dafny module per pass, all written as pure functions on
`seq<char>`:

- `Text`: shared string helpers (`trim`, `split`/`join`, upper-casing,
  counting, blank removal).
- `Options`: the configuration, the defaults and the rule table.
- `Calls`: name, span and argument splitting.
- `Preprocess`, `Scanner`, `Indent`, `Spacing`, `Codes`, `Minify`: one
  module per pass.
- `Optimizer`: the dispatch on `minify`.

The source's loops appear in two forms. Most are recursive functions over
the position and the in-literal flag. `numberToColumn` is kept as a
`method` with its `while` loop and proved equal to a recursive definition
of the column code.

Some passes of the source can loop forever:

- the comment skip, under a `/` terminator, on any `//` outside a literal;
- `insertSpaces`, in readable mode, with a spacing key whose `from` is
  empty;
- `replaceKeys`, when an empty identifier was captured.

The predicate `Options.Supported` excludes the first two configurations.
It also excludes a `(` terminator. That terminator is excluded because
the model's termination argument for the call scanner counts the `(`
still ahead of the scan, and inserted terminators would add to that
count. The third case is a property of the data and is modelled as the
result `None`.

## Model

| member | source | states |
|---|---|---|
| Options.DefaultConfig | src/excelLambdaOptimizer.ts:124-187 | With no caller options the terminator is a line feed, the indent size is 2, the spacing list is the default one, the rules are LAMBDA, LET, IF, MAP, REDUCE and HSTACK in that order, and both `skipFirstLAMBDA` and `minify` are on |
| Options.OverrideWins | src/excelLambdaOptimizer.ts:186 | A key the caller gives replaces the default. A key the caller omits keeps it (line feed, minify on) |
| Options.DefaultRulePolicies | src/excelLambdaOptimizer.ts:152-172 | LET captures exactly its even, non-final arguments and breaks before the even ones. LAMBDA captures all but its last and never breaks. IF breaks before every argument but the first and captures none |
| Options.DefaultsSupported | src/excelLambdaOptimizer.ts:124-187 | The default configuration lies inside the terminating domain the model covers |
| Options.FindRule | src/excelLambdaOptimizer.ts:248 | The rule found is the first whose name equals the call's name; no rule is found exactly when no name matches |
| Calls.FunctionName | src/excelLambdaOptimizer.ts:21-29 | `null` exactly when no control character precedes the index. Otherwise the name is the run just before the index, which contains no control character and is preceded by one |
| Calls.FunctionValue | src/excelLambdaOptimizer.ts:35-58 | The span is a slice starting at the paren. It ends at the first `)` outside a literal that brings the depth back to zero, or at the end of the text when there is none |
| Calls.ValueEndFirstClose | src/excelLambdaOptimizer.ts:40-57 | The scan stops at the first closing position, not a later one, and runs to the end of the text only when there is none |
| Calls.CutsAreTopLevelCommas | src/excelLambdaOptimizer.ts:71-84 | A position splits the arguments exactly when it holds a comma at depth zero outside a literal, strictly inside the parens |
| Calls.SplitArgsAtTopLevelCommas | src/excelLambdaOptimizer.ts:64-91 | The argument list equals an independent definition: the trimmed pieces between consecutive top-level commas, with a final piece only when it is non-empty |
| Calls.JoinSplitArgs | src/excelLambdaOptimizer.ts:64-91 | For a blank-free span that does not end in a top-level comma, joining the arguments with commas gives back the text between the parens |
| Calls.SplitArgsCount | src/excelLambdaOptimizer.ts:64-91 | The arguments together hold no more of any character than the span after its `(` |
| Calls.SplitArgsExamples | src/excelLambdaOptimizer.ts:86-90 | `()` has no arguments, and `(a,)` has the single argument `a`: a trailing empty argument is dropped |
| Scanner.CallName | src/excelLambdaOptimizer.ts:243-244 | The upper-cased, trimmed name is non-empty, has no `(`, and the characters it replaces hold no `(` |
| Scanner.CallNameInPlace | src/excelLambdaOptimizer.ts:243-244 | On blank-free text the name used is exactly the upper-cased raw name, and an empty raw name skips the paren |
| Scanner.SelectedLambda | src/excelLambdaOptimizer.ts:262-265 | The LAMBDA rule captures every argument but the last, in order |
| Scanner.BrokenWithout | src/excelLambdaOptimizer.ts:267-273 | For arguments without terminators, deleting the terminators from each broken argument gives the argument back |
| Scanner.AnyBreakCounts | src/excelLambdaOptimizer.ts:259-275 | `isBreak` ends up set exactly when the number of breaking indices is positive |
| Scanner.RebuiltBreaks | src/excelLambdaOptimizer.ts:260-276 | For a terminator other than `(`, `)` and `,`, the rebuilt span holds the arguments' terminators, plus one per index the break policy selects, plus one before `)` when there was any break |
| Scanner.RebuiltParens | src/excelLambdaOptimizer.ts:260-276 | After its opening paren the rebuilt span holds exactly as many `(` as the arguments together |
| Scanner.RebuildOnlyAddsBreaks | src/excelLambdaOptimizer.ts:258-276 | For a terminator other than `(`, `)` and `,`, and a call span `(…)` with a non-empty inside that holds no blank and no terminator and does not end in a top-level comma, deleting the inserted terminators from the rebuilt span gives back the original span |
| Scanner.AtParen | src/excelLambdaOptimizer.ts:239-280 | A paren is skipped exactly when it has no name. Otherwise the paren stays in place, the identifier lists only grow, and `firstKeys` grows only while the first LAMBDA is awaited |
| Scanner.AtParenUnknown | src/excelLambdaOptimizer.ts:250-256 | A name without a rule is written back upper-cased. Everything else in the text and the lists is unchanged |
| Scanner.AtParenRule | src/excelLambdaOptimizer.ts:258-280 | A name with a rule splices the rebuilt span in place of the original span. The captured arguments go to `firstKeys` for the first LAMBDA when skipping, else to `keys` |
| Scanner.AtParenShrinks | src/excelLambdaOptimizer.ts:238-281 | A rewrite leaves the text before the paren with the same parens and leaves fewer parens after it, so resuming at the next position terminates |
| Scanner.BreakFromKeys | src/excelLambdaOptimizer.ts:263-264 | Across the loop both identifier lists only grow, and `firstKeys` stays fixed once the first LAMBDA has been handled |
| Scanner.NoSkipNoFirstKeys | src/excelLambdaOptimizer.ts:236 | Without `skipFirstLAMBDA` nothing is ever collected into `firstKeys` |
| Scanner.BreakArgsParens | src/excelLambdaOptimizer.ts:232-284 | The pass never adds an opening paren |
| Scanner.BreakArgsNoCalls | src/excelLambdaOptimizer.ts:238-283 | A text without `(` comes back unchanged, with no identifiers collected |
| Preprocess.StripFrom | src/excelLambdaOptimizer.ts:198-218 | The stripped text is no longer than the rest of the input |
| Preprocess.StripFromNoBlank | src/excelLambdaOptimizer.ts:205-211 | The stripped text has no blank, whether the blank stood inside a string literal or outside one |
| Preprocess.StripFromInit | src/excelLambdaOptimizer.ts:198-218 | On every text the last character (code point) is never emitted: no character occurs in the output more often than in the input without its last character |
| Preprocess.StripDropsLast | src/excelLambdaOptimizer.ts:198 | On text with no `/` or blank, stripping returns exactly everything but the last character |
| Preprocess.CommentSkipped | src/excelLambdaOptimizer.ts:214-217 | A `//` outside a literal skips everything up to the next terminator, which is kept |
| Preprocess.StripFromCount | src/excelLambdaOptimizer.ts:198-218 | Stripping never adds an occurrence of any character |
| Preprocess.CompactCount | src/excelLambdaOptimizer.ts:221 | Re-joining the trimmed non-empty lines removes every terminator and keeps every character that is neither white space nor the terminator, occurrence for occurrence |
| Preprocess.FromLambda | src/excelLambdaOptimizer.ts:224 | The result starts with `=`. It continues with a case-insensitive `LAMBDA` when the text has one, and is at most two characters otherwise. No character other than `=` is added |
| Preprocess.FromLambdaCut | src/excelLambdaOptimizer.ts:224 | When `LAMBDA` first occurs, in any letter case, at position `p`, the result is `=` followed by everything from `p` to the end |
| Preprocess.FromLambdaAbsent | src/excelLambdaOptimizer.ts:224 | With no `LAMBDA` anywhere, the result is `=` followed by the last character (code point), or `=` alone for an empty text (`slice(-1)`) |
| Preprocess.InitializeTextCut | src/excelLambdaOptimizer.ts:193-225 | The cleaned text is `=` followed by the stripped and compacted input from its first `LAMBDA` to the end |
| Preprocess.InitializeTextShape | src/excelLambdaOptimizer.ts:193-225 | For a terminator other than `/` and `=`, the cleaned text starts with `=`, holds no blank and no terminator, and either continues with `LAMBDA` or has at most two characters |
| Preprocess.InitializeTextCount | src/excelLambdaOptimizer.ts:193-225 | Cleaning adds no occurrence of any character other than `=` |
| Indent.BalanceExact | src/excelLambdaOptimizer.ts:294-306 | The depth after any prefix is its `(` count minus its `)` count plus the number of `)` followed by one of `+-*/=!<>` |
| Indent.OpenExactly | src/excelLambdaOptimizer.ts:293-308 | A line is open exactly when its `(` outnumber its `)` that are not followed by a continuer |
| Indent.ContinuedOpen | src/excelLambdaOptimizer.ts:299-305 | `(a)+` is open and `(a)` is not |
| Indent.OpenByParens | src/excelLambdaOptimizer.ts:293-308 | A line with more `(` than `)` is open, and a line with no `(` is not |
| Indent.Pad | src/excelLambdaOptimizer.ts:315 | The padding is the larger of 0 and size times level: at least both, and equal to one of them |
| Indent.CloserNoDeeper | src/excelLambdaOptimizer.ts:313-317 | For a non-negative indent size, a line starting with `)` never gets more padding than the line before it |
| Indent.LevelSteps | src/excelLambdaOptimizer.ts:313-317 | The next line's level is this line's level, plus one if this line is open, minus one if the next line starts with `)` |
| Indent.IndentFromLevels | src/excelLambdaOptimizer.ts:313-318 | Each output line is its input line behind `max(0, size * level)` blanks |
| Indent.IndentKeepsLines | src/excelLambdaOptimizer.ts:310-318 | For a terminator other than a blank, the output has as many lines as the input, each the indented input line |
| Indent.IndentOnlyAddsBlanks | src/excelLambdaOptimizer.ts:310-318 | For every terminator, a blank included, removing blanks from the output gives the input without blanks |
| Indent.IndentNoParens | src/excelLambdaOptimizer.ts:291-319 | A text without parens is returned unchanged |
| Spacing.FirstKeyLeast | src/excelLambdaOptimizer.ts:336-339 | The key chosen matches at the position and no earlier key in the list does; no key is chosen exactly when none matches |
| Spacing.LiteralCopied | src/excelLambdaOptimizer.ts:334-343 | Inside a literal every character up to the next quote is copied unchanged |
| Spacing.NoKeysCopy | src/excelLambdaOptimizer.ts:326-351 | With no spacing keys the text is copied unchanged |
| Spacing.InsertSpacesOnlyAddsBlanks | src/excelLambdaOptimizer.ts:326-351 | When every key only adds blanks, removing blanks from the output gives the input without blanks |
| Spacing.DefaultKeysPadOnly | src/excelLambdaOptimizer.ts:127-151 | The 23 default keys have non-empty `from` texts and each only adds blanks |
| Codes.NumberToColumn | src/excelLambdaOptimizer.ts:376-385 | The loop computes the bijective base-26 column code of its number |
| Codes.ColumnRoundTrip | src/excelLambdaOptimizer.ts:376-385 | Reading a column code back as a number gives the number it came from |
| Codes.CodeRoundTrip | src/excelLambdaOptimizer.ts:376-385 | Every non-empty upper-case letter string is the column code of its number |
| Codes.ColumnInjective | src/excelLambdaOptimizer.ts:376-385 | Different numbers get different codes |
| Codes.ColumnLengths | src/excelLambdaOptimizer.ts:375-385 | 0 is A, 25 is Z, 26 is AA, 27 is AB, 701 is ZZ and 702 is AAA |
| Codes.FirstFree | src/excelLambdaOptimizer.ts:393-401 | The search ends at or after its start, on a code that is not taken |
| Codes.FirstFreeLeast | src/excelLambdaOptimizer.ts:393-401 | Every code skipped before the one found is taken |
| Codes.CodesFresh | src/excelLambdaOptimizer.ts:391-402 | The codes handed out are column codes that were not taken beforehand, and no two are alike |
| Codes.NewKeys | src/excelLambdaOptimizer.ts:388-404 | One code per identifier. Each is a column code, no two are alike, and none equals an upper-cased first-LAMBDA parameter |
| Codes.CodesFromFirstFree | src/excelLambdaOptimizer.ts:391-402 | Code `j` is the first free code from number `j` on, with the codes handed out before it counted as taken |
| Codes.NewKeysSequential | src/excelLambdaOptimizer.ts:388-404 | When no first-LAMBDA parameter looks like a code, identifier `j` gets column `j` |
| Minify.TokenEnd | src/excelLambdaOptimizer.ts:366-373 | The token runs up to the first control character at or after the start, or to the end of the text |
| Minify.Token | src/excelLambdaOptimizer.ts:366-373 | The token is a slice of the text at the position and holds no control character |
| Minify.IndexOf | src/excelLambdaOptimizer.ts:426 | The index found is the first occurrence of the token among the identifiers; none is found exactly when the token is not among them |
| Minify.StepStalls | src/excelLambdaOptimizer.ts:407-436 | The loop fails to advance exactly at a token start outside a literal whose token is empty while the empty string is a captured identifier |
| Minify.EmptyKeyHangs | src/excelLambdaOptimizer.ts:428-431 | With an empty captured identifier, renaming the text `(` never returns |
| Minify.ReplaceEnds | src/excelLambdaOptimizer.ts:407-436 | Without an empty captured identifier renaming always returns |
| Minify.RenameAt | src/excelLambdaOptimizer.ts:424-431 | At a token start outside a literal whose token is identifier `r` (first occurrence), the output is code `r` followed by the renaming of the text after the identifier |
| Minify.LiteralKept | src/excelLambdaOptimizer.ts:411-422 | Inside a literal every character up to the next quote is copied unchanged |
| Minify.RenameToSelf | src/excelLambdaOptimizer.ts:407-436 | When no identifier is empty, renaming every identifier to itself returns the text unchanged |
| Minify.NoKeysIdentity | src/excelLambdaOptimizer.ts:358-438 | With no captured identifiers the text is returned unchanged, whatever the first LAMBDA's parameters |
| Minify.DeleteKeepsOthers | src/excelLambdaOptimizer.ts:445-455 | Every character other than the terminator keeps its number of occurrences |
| Minify.DeleteNoLiterals | src/excelLambdaOptimizer.ts:445-455 | On a text without quotes every terminator is removed and nothing else |
| Minify.DeleteIdempotent | src/excelLambdaOptimizer.ts:445-455 | For a terminator other than `"`, deleting line breaks twice gives the same as once |
| Minify.DeleteBreakIdempotent | src/excelLambdaOptimizer.ts:445-456 | For a terminator other than `"`, `deleteBreak` is idempotent |
| Minify.BreaksOnlyInLiterals | src/excelLambdaOptimizer.ts:448-452 | For a terminator other than `"`, every terminator left in the output lies inside a literal |
| Minify.DeleteInLiteral | src/excelLambdaOptimizer.ts:448-452 | Inside a literal every character up to the next quote is kept, terminators included |
| Minify.DeleteOutsideLiteral | src/excelLambdaOptimizer.ts:448-452 | Outside a literal exactly the terminators before the next quote are dropped |
| Minify.LiteralCloses | src/excelLambdaOptimizer.ts:448-452 | A literal's contents and its closing quote are kept (the quote unless it is the terminator itself), and deletion resumes outside the literal after it |
| Minify.LiteralOpens | src/excelLambdaOptimizer.ts:448-452 | Outside a literal the terminators before the next quote go, the quote is kept, and the text after it is read inside a literal |
| Optimizer.LambdaOptimizer | src/excelLambdaOptimizer.ts:110-459 | Readable mode always returns |
| Optimizer.ReadableOnlyAddsBlanks | src/excelLambdaOptimizer.ts:320-352 | For every supported terminator, a blank included, when the spacing keys only add blanks, readable output equals the broken-up text up to blanks |
| Optimizer.DefaultReadable | src/excelLambdaOptimizer.ts:124-352 | With the default spacing keys and any supported terminator, a blank included, readable output equals the broken-up text up to blanks |
| Optimizer.MinifyReturns | src/excelLambdaOptimizer.ts:439-456 | Minifying returns unless an empty identifier was collected |
| Optimizer.MinifyNoKeys | src/excelLambdaOptimizer.ts:439-456 | With no identifiers collected, minifying only deletes the line breaks outside literals |
| Optimizer.MinifiedBreaks | src/excelLambdaOptimizer.ts:439-456 | For a terminator other than `"`, minified output keeps a terminator only inside a literal, and has none when it has no quote |

## Where the code and its documentation differ

The model follows the code in each of these cases.

- The comment loop runs while `i < S.length - 1` (line 198), so the last
  character of the input is always dropped (`Preprocess.StripFromInit`). `=LAMBDA(x,y,x+y)` loses its
  closing paren before any other pass runs.
- Blanks are dropped inside string literals too (line 209), not only
  outside them.
- After a call is rewritten, the scan goes on at the next position
  (line 238), inside the rebuilt span. It does not jump past the inserted
  text.
- An empty final argument is dropped (lines 87-88), so `(a,)` has one
  argument. Inner empty arguments are kept.
- Renaming looks identifiers up with `indexOf` (line 426). Every
  occurrence of a repeated identifier therefore gets the code of its first
  occurrence, not a code of its own.
- The token boundaries of `replaceKeys` include `=` (line 363).
- The comment at line 375 maps 26 to Z. The loop maps 25 to Z and 26 to
  AA (`Codes.ColumnLengths`).
- Not every pass is bounded by the input length:
  - an empty captured identifier makes `replaceKeys` loop forever
    (`i += 0`, line 431);
  - a `/` terminator stalls the comment skip on a `//` (line 215);
  - an empty spacing `from` stalls `insertSpaces` (line 346).

## Left out

- src/main.tsx (the page), src/utils.ts and vite.config.js are not part
  of this model. They are user interface and build code.
- `toUpperCase` is modelled for ASCII `a`-`z` only. Other characters are
  left unchanged, as there is no Unicode case table here.
- The terminator is a single character. A multi-character `EOL` string is
  not modelled.
- An option passed explicitly as `undefined` (which overrides the default
  with `undefined`) is not modelled. A key is either given or absent.
- `indentSize` is an integer. Fractional or non-numeric sizes (which make
  `repeat` throw) are not modelled.
- JavaScript numbers are unbounded integers here. The column codes and
  positions never reach the 2^53 limit on realistic formulas.
- `Options.Supported` excludes a few configurations. With them some inputs
  on which the source does finish are not modelled either:
  - a `/` terminator, including texts without a `//` comment;
  - a `(` terminator, on which the source may still finish;
  - a readable-mode spacing key with an empty `from`, including texts on
    which that key is never chosen outside a literal.
- A text is a sequence of Unicode code points, while the source indexes
  UTF-16 code units. Every character the source compares against is
  ASCII, so the two agree except where the source cuts by position.
- Preprocess.StripFromInit and Preprocess.FromLambdaAbsent: "the last
  character" is the last code point. For a text ending in a character
  outside the Basic Multilingual Plane (an emoji, say), the loop of line
  198 drops only its low surrogate. `slice(-1)` at line 224 keeps only
  that surrogate. The model drops, and keeps, the whole character.
- `trim` is modelled with the ASCII white space only: blank, tab, line
  feed, carriage return, vertical tab and form feed. The source's `trim`
  also strips Unicode white space such as U+00A0, U+FEFF, U+2028, U+2029
  and U+3000. The model keeps those at the edges of a line or argument,
  because there is no Unicode character table here.
- Minify.DeleteIdempotent, Minify.DeleteBreakIdempotent and
  Minify.BreaksOnlyInLiterals: not stated for a `"` terminator. There
  `deleteBreak` is not idempotent: it turns `"a"b"c"` into `"ab"c`, and a
  second pass gives `"abc`.
- Indent.IndentKeepsLines: not stated for a blank terminator. There the
  padding blanks split the output into more lines than the input has.
- Scanner.RebuiltBreaks and Scanner.RebuildOnlyAddsBreaks: not stated for
  a `)` or `,` terminator, which the supported configurations allow. There
  the span's own closing paren or commas would be counted or deleted as
  terminators.
- Minify.ReplaceFrom: a stall on a closing quote under a `"` terminator
  is modelled as a loop that never ends. The source's flag flips there,
  and its next pass copies the quote and goes on. The optimizer's text
  starts with `=`, so with an empty identifier it stalls at position 0
  first, where the source does loop forever.
- Optimizer.MinifiedBreaks: not stated for a `"` terminator. There
  `deleteBreak` reads each closing quote as a line break outside a literal
  and drops it.
- `argRules` policies are total functions of index and count. Closures
  with side effects or exceptions are not modelled.
- Options.OverrideWins: covers the scalar keys. For `spacingKeys` and
  `argRules` it holds by the same `Merge` definition, which it does not
  restate.
- Calls.SplitArgsCount: states "no more than", not equality, because
  trimming can drop white space at the edges of an argument.
- Preprocess.InitializeTextCount: states "no more than", not equality,
  because comments, blanks and the text before `LAMBDA` are dropped.
- Scanner.BreakArgsParens: bounds the number of `(` only. The full
  rewrite at each paren is stated by `Scanner.AtParenRule` and
  `Scanner.AtParenUnknown`.
- Preprocess.StripDropsLast: states exact equality only for texts with
  no `/` and no blank. For every text the dropped last character is
  stated, in count form, by `Preprocess.StripFromInit`.
- Preprocess.FromLambda and Preprocess.InitializeTextShape: state the
  shape of the result. Its exact contents are stated by
  `Preprocess.FromLambdaCut`, `Preprocess.FromLambdaAbsent` and
  `Preprocess.InitializeTextCut`. `Preprocess.InitializeTextShape` is not
  stated for an `=` terminator, because the leading `=` is then itself a
  terminator.
- Indent.OpenByParens: states two sufficient conditions. The exact rule,
  with the continuers, is `Indent.OpenExactly`.
- Minify.BreaksOnlyInLiterals: states where terminators may remain. That
  literal contents are kept, terminators included, is stated by
  `Minify.DeleteInLiteral` and `Minify.LiteralCloses`.
- Optimizer.LambdaOptimizer: states termination of the readable path
  only. Its output is described by the `Optimizer` lemmas.
- Minify.ReplaceEnds: states that renaming returns. What it returns is
  stated by `Minify.RenameAt`, `Minify.LiteralKept` and
  `Minify.RenameToSelf`.
- Optimizer.ReadableOnlyAddsBlanks: relates the output to the broken-up
  text up to blanks only. The positions of the added blanks are stated
  per pass by `Indent.IndentFromLevels` and `Spacing.FirstKeyLeast`.

=== FILE: calls.dfy ===
/** The call-site primitives of the scanner: the function name before a `(`
    (`getFunctionName`), the balanced span from a `(` (`getFunctionValue`)
    and the top-level argument split of such a span (`splitArgs`). */
module Calls {
  import opened Wrappers
  import opened Text

  /** The characters that end a function name when scanning backwards. */
  const NameStops: string := "=+-*/(,"

  /** `getFunctionName(text, index)`: the run of non-stop characters right
      before `index`, provided a stop character precedes it; `None` for the
      source's `null`. */
  function FunctionName(text: string, index: nat): (r: Option<string>)
    requires index <= |text|
    ensures r.None? ==> forall k :: 0 <= k < index ==> text[k] !in NameStops
    ensures r.Some? ==> |r.value| < index && r.value == text[index - |r.value|..index]
    ensures r.Some? ==> text[index - |r.value| - 1] in NameStops
    ensures r.Some? ==> forall k :: index - |r.value| <= k < index ==> text[k] !in NameStops
    decreases index
  {
    if index == 0 then None
    else if text[index - 1] in NameStops then Some([])
    else match FunctionName(text, index - 1)
      case None => None
      case Some(n) => Some(n + [text[index - 1]])
  }

  // ---------- literal-aware depth scanning ----------

  /** The two variables of the scanning loops: paren depth and in-literal flag. */
  datatype Depth = Depth(depth: int, inLiteral: bool)

  const Outside: Depth := Depth(0, false)

  /** One loop step: a quote toggles the literal flag; outside a literal
      `(` deepens and `)` shallows. */
  function Next(st: Depth, c: char): Depth
  {
    var lit := Toggle(c, st.inLiteral);
    if lit then Depth(st.depth, lit)
    else if c == '(' then Depth(st.depth + 1, lit)
    else if c == ')' then Depth(st.depth - 1, lit)
    else Depth(st.depth, lit)
  }

  /** The state a scan started at `from` has before looking at position `k`. */
  function StateAt(text: string, from: nat, k: nat): Depth
    requires from <= k <= |text|
    decreases k - from
  {
    if k == from then Outside else Next(StateAt(text, from, k - 1), text[k - 1])
  }

  /** `c` is a `)` outside a literal that brings the depth back to zero. */
  predicate ClosesHere(st: Depth, c: char)
  {
    c == ')' && !st.inLiteral && st.depth == 1
  }

  predicate ClosesAt(text: string, from: nat, k: nat)
    requires from <= k < |text|
  {
    ClosesHere(StateAt(text, from, k), text[k])
  }

  /** The end (exclusive) of the span the loop at lines 40-55 returns. */
  function ValueEnd(text: string, i: nat, st: Depth): (j: nat)
    requires i <= |text|
    ensures i <= j <= |text|
    ensures i < |text| ==> i < j
    decreases |text| - i
  {
    if i == |text| then |text|
    else if ClosesHere(st, text[i]) then i + 1
    else ValueEnd(text, i + 1, Next(st, text[i]))
  }

  lemma {:induction false} ValueEndFirstClose(text: string, from: nat, i: nat)
    requires from <= i <= |text|
    requires forall k :: from <= k < i ==> !ClosesAt(text, from, k)
    ensures forall k :: from <= k < ValueEnd(text, i, StateAt(text, from, i)) - 1 ==> !ClosesAt(text, from, k)
    ensures var j := ValueEnd(text, i, StateAt(text, from, i));
      j == |text| || (from < j && ClosesAt(text, from, j - 1))
    decreases |text| - i
  {
    if i < |text| && !ClosesHere(StateAt(text, from, i), text[i]) {
      assert StateAt(text, from, i + 1) == Next(StateAt(text, from, i), text[i]);
      ValueEndFirstClose(text, from, i + 1);
    }
  }

  /** `getFunctionValue(text, index)`: from `index` up to and including the
      first `)` outside a literal that closes the depth opened there, or the
      whole remainder when no such `)` exists. */
  function FunctionValue(text: string, index: nat): (v: string)
    requires index <= |text|
    ensures index + |v| <= |text| && v == text[index..index + |v|]
    ensures index < |text| ==> |v| >= 1
    ensures forall k :: index <= k < index + |v| - 1 ==> !ClosesAt(text, index, k)
    ensures index + |v| == |text| || (|v| >= 1 && ClosesAt(text, index, index + |v| - 1))
  {
    ValueEndFirstClose(text, index, index);
    text[index..ValueEnd(text, index, Outside)]
  }

  // ---------- argument splitting ----------

  /** The loop at lines 71-88 with the `trim()` of each pushed slice
      postponed: `start` is where the current argument began, `acc` the
      slices pushed so far. */
  function PiecesFrom(value: string, i: nat, st: Depth, start: nat, acc: seq<string>): seq<string>
    requires 1 <= start <= i <= |value| - 1
    decreases |value| - i
  {
    if i == |value| - 1 then
      if start < |value| - 1 then acc + [value[start..|value| - 1]] else acc
    else if value[i] == ',' && st == Outside then
      PiecesFrom(value, i + 1, Next(st, value[i]), i + 1, acc + [value[start..i]])
    else
      PiecesFrom(value, i + 1, Next(st, value[i]), start, acc)
  }

  /** The untrimmed slices `splitArgs` pushes. */
  function Pieces(value: string): seq<string>
  {
    if |value| < 2 then [] else PiecesFrom(value, 1, Outside, 1, [])
  }

  /** `splitArgs(value)`: the trimmed arguments between the first and the
      last character of a call span. Trimming each slice as it is pushed
      and trimming them all afterwards give the same list. */
  function SplitArgs(value: string): seq<string>
  {
    TrimAll(Pieces(value))
  }

  /** A comma at depth zero outside a literal, as seen from the span's
      second character. */
  predicate IsCut(value: string, k: nat)
    requires 1 <= k < |value|
  {
    value[k] == ',' && StateAt(value, 1, k) == Outside
  }

  /** `cuts` is strictly increasing, from `lo` on and below `hi`. */
  predicate Increasing(cuts: seq<nat>, lo: nat, hi: nat)
    decreases |cuts|
  {
    cuts == [] || (lo <= cuts[0] < hi && Increasing(cuts[1..], cuts[0] + 1, hi))
  }

  /** The cut positions at or after `i`, in increasing order. */
  function CutsFrom(value: string, i: nat): (cuts: seq<nat>)
    requires 1 <= i <= |value| - 1
    ensures Increasing(cuts, i, |value| - 1)
    decreases |value| - i
  {
    if i == |value| - 1 then []
    else if IsCut(value, i) then [i] + CutsFrom(value, i + 1)
    else CutsFrom(value, i + 1)
  }

  lemma {:induction false} CutsFromExact(value: string, i: nat, k: nat)
    requires 1 <= i <= |value| - 1
    ensures k in CutsFrom(value, i) <==> i <= k < |value| - 1 && IsCut(value, k)
    decreases |value| - i
  {
    if i < |value| - 1 {
      CutsFromExact(value, i + 1, k);
    }
  }

  /** The texts between `start`, the cut positions and the span's last
      character, with an empty final piece left out. */
  function Between(value: string, start: nat, cuts: seq<nat>): seq<string>
    requires 1 <= start <= |value| - 1
    requires Increasing(cuts, start, |value| - 1)
    decreases |cuts|
  {
    if cuts == [] then
      if start < |value| - 1 then [value[start..|value| - 1]] else []
    else
      [value[start..cuts[0]]] + Between(value, cuts[0] + 1, cuts[1..])
  }

  /** The arguments of a span as a declarative cut of its interior. */
  function TopLevelArgs(value: string): seq<string>
  {
    if |value| < 2 then [] else TrimAll(Between(value, 1, CutsFrom(value, 1)))
  }

  lemma {:induction false} PiecesFromCuts(value: string, i: nat, start: nat, acc: seq<string>)
    requires 1 <= start <= i <= |value| - 1
    requires forall k :: start <= k < i ==> !IsCut(value, k)
    ensures PiecesFrom(value, i, StateAt(value, 1, i), start, acc)
         == acc + Between(value, start, CutsFrom(value, i))
    decreases |value| - i
  {
    if i < |value| - 1 {
      var st := StateAt(value, 1, i);
      assert StateAt(value, 1, i + 1) == Next(st, value[i]);
      if IsCut(value, i) {
        PiecesFromCuts(value, i + 1, i + 1, acc + [value[start..i]]);
        assert PiecesFrom(value, i, st, start, acc)
            == PiecesFrom(value, i + 1, Next(st, value[i]), i + 1, acc + [value[start..i]]);
        CutsStep(value, i, start, acc);
      } else {
        PiecesFromCuts(value, i + 1, start, acc);
        assert PiecesFrom(value, i, st, start, acc) == PiecesFrom(value, i + 1, Next(st, value[i]), start, acc);
        assert CutsFrom(value, i) == CutsFrom(value, i + 1);
      }
    }
  }

  lemma CutsStep(value: string, i: nat, start: nat, acc: seq<string>)
    requires 1 <= start <= i < |value| - 1 && IsCut(value, i)
    ensures acc + Between(value, start, CutsFrom(value, i))
         == (acc + [value[start..i]]) + Between(value, i + 1, CutsFrom(value, i + 1))
  {
    assert CutsFrom(value, i) == [i] + CutsFrom(value, i + 1);
    BetweenCons(value, start, i, CutsFrom(value, i + 1));
    AppendOne(acc, Between(value, start, CutsFrom(value, i)),
      value[start..i], Between(value, i + 1, CutsFrom(value, i + 1)));
  }

  lemma AppendOne(acc: seq<string>, x: seq<string>, p: string, y: seq<string>)
    requires x == [p] + y
    ensures acc + x == (acc + [p]) + y
  {
    assert acc + ([p] + y) == (acc + [p]) + y;
  }

  lemma BetweenCons(value: string, start: nat, c0: nat, rest: seq<nat>)
    requires 1 <= start <= c0 < |value| - 1
    requires Increasing(rest, c0 + 1, |value| - 1)
    ensures Increasing([c0] + rest, start, |value| - 1)
    ensures Between(value, start, [c0] + rest)
         == [value[start..c0]] + Between(value, c0 + 1, rest)
  {
    var cuts := [c0] + rest;
    assert cuts[0] == c0 && cuts[1..] == rest;
  }

  /** `splitArgs` cuts at the positions `CutsFrom(value, 1)` and trims each
      piece; an empty final piece is dropped. */
  lemma SplitArgsAtTopLevelCommas(value: string)
    ensures SplitArgs(value) == TopLevelArgs(value)
  {
    if |value| >= 2 {
      PiecesFromCuts(value, 1, 1, []);
      assert [] + Between(value, 1, CutsFrom(value, 1)) == Between(value, 1, CutsFrom(value, 1));
    }
  }

  /** The cut positions are exactly the commas outside literals at depth
      zero strictly inside the span. */
  lemma CutsAreTopLevelCommas(value: string, k: nat)
    requires |value| >= 2
    ensures k in CutsFrom(value, 1) <==> 1 <= k < |value| - 1 && IsCut(value, k)
  {
    CutsFromExact(value, 1, k);
  }

  lemma {:induction false} PiecesFromCount(value: string, i: nat, st: Depth, start: nat, acc: seq<string>, c: char)
    requires 1 <= start <= i <= |value| - 1
    ensures SumCount(PiecesFrom(value, i, st, start, acc), c) <= SumCount(acc, c) + Count(value[start..|value| - 1], c)
    decreases |value| - i
  {
    var n := |value| - 1;
    if i == n {
      if start < n {
        SumCountAppend(acc, [value[start..n]], c);
      }
    } else if value[i] == ',' && st == Outside {
      PiecesFromCount(value, i + 1, Next(st, value[i]), i + 1, acc + [value[start..i]], c);
      CutCount(value, i, start, acc, c);
    } else {
      PiecesFromCount(value, i + 1, Next(st, value[i]), start, acc, c);
    }
  }

  lemma CutCount(value: string, i: nat, start: nat, acc: seq<string>, c: char)
    requires 1 <= start <= i < |value| - 1
    ensures SumCount(acc + [value[start..i]], c) + Count(value[i + 1..|value| - 1], c)
         <= SumCount(acc, c) + Count(value[start..|value| - 1], c)
  {
    var n := |value| - 1;
    SumCountAppend(acc, [value[start..i]], c);
    assert value[start..n] == value[start..i] + ([value[i]] + value[i + 1..n]);
    CountConcat(value[start..i], [value[i]] + value[i + 1..n], c);
    CountConcat([value[i]], value[i + 1..n], c);
  }

  /** The arguments hold no more of any character than the span's interior. */
  lemma SplitArgsCount(value: string, c: char)
    requires |value| >= 1
    ensures SumCount(SplitArgs(value), c) <= Count(value[1..], c)
  {
    TrimAllCount(Pieces(value), c);
    if |value| >= 2 {
      PiecesFromCount(value, 1, Outside, 1, [], c);
      CountSplit(value[1..], |value| - 2, c);
      assert value[1..][..|value| - 2] == value[1..|value| - 1];
    }
  }

  /** Every cut in `cuts` is a comma. */
  predicate AllCommas(value: string, cuts: seq<nat>)
  {
    forall j :: 0 <= j < |cuts| ==> cuts[j] < |value| && value[cuts[j]] == ','
  }

  lemma {:induction false} CutsFromCommas(value: string, i: nat)
    requires 1 <= i <= |value| - 1
    ensures AllCommas(value, CutsFrom(value, i))
    decreases |value| - i
  {
    if i < |value| - 1 {
      CutsFromCommas(value, i + 1);
    }
  }

  /** Joining the pieces with commas gives back the text they were cut
      from, when the final piece is not empty. */
  lemma {:induction false} JoinBetween(value: string, start: nat, cuts: seq<nat>)
    requires 1 <= start < |value| - 1
    requires Increasing(cuts, start, |value| - 1)
    requires AllCommas(value, cuts)
    requires cuts == [] || cuts[|cuts| - 1] < |value| - 2
    ensures Join(Between(value, start, cuts), ",") == value[start..|value| - 1]
    decreases |cuts|
  {
    var n := |value| - 1;
    if cuts != [] {
      var c0 := cuts[0];
      var rest := cuts[1..];
      assert rest != [] ==> rest[|rest| - 1] == cuts[|cuts| - 1];
      assert rest != [] ==> rest[0] == cuts[1];
      assert AllCommas(value, rest) by {
        forall j | 0 <= j < |rest| ensures rest[j] < |value| && value[rest[j]] == ',' {
          assert rest[j] == cuts[j + 1];
        }
      }
      JoinBetween(value, c0 + 1, rest);
      var tail := Between(value, c0 + 1, rest);
      assert tail != [];
      var parts := [value[start..c0]] + tail;
      assert parts[1..] == tail;
      assert value[start..n] == value[start..c0] + "," + value[c0 + 1..n];
    }
  }

  /** `splitArgs` is undone by joining with commas, for a span whose
      interior is non-empty, holds no whitespace and does not end in a
      top-level comma. */
  lemma JoinSplitArgs(value: string)
    requires |value| >= 3
    requires forall k :: 0 <= k < |value| ==> !IsSpace(value[k])
    requires !IsCut(value, |value| - 2)
    ensures Join(SplitArgs(value), ",") == value[1..|value| - 1]
  {
    JoinPieces(value);
    PiecesFromCuts(value, 1, 1, []);
    BetweenNoSpace(value, 1, CutsFrom(value, 1));
    TrimAllKeeps(Pieces(value));
  }

  /** The untrimmed pieces join back to the span's interior. */
  lemma JoinPieces(value: string)
    requires |value| >= 3
    requires !IsCut(value, |value| - 2)
    ensures Join(Pieces(value), ",") == value[1..|value| - 1]
  {
    var cuts := CutsFrom(value, 1);
    PiecesFromCuts(value, 1, 1, []);
    assert Pieces(value) == Between(value, 1, cuts);
    CutsFromCommas(value, 1);
    LastCutBelow(value);
    JoinBetween(value, 1, cuts);
  }

  lemma LastCutBelow(value: string)
    requires |value| >= 3
    requires !IsCut(value, |value| - 2)
    ensures CutsFrom(value, 1) == [] || CutsFrom(value, 1)[|CutsFrom(value, 1)| - 1] < |value| - 2
  {
    var cuts := CutsFrom(value, 1);
    if cuts != [] {
      var last := cuts[|cuts| - 1];
      CutsFromExact(value, 1, last);
      assert last in cuts;
    }
  }

  lemma {:induction false} BetweenNoSpace(value: string, start: nat, cuts: seq<nat>)
    requires 1 <= start <= |value| - 1
    requires Increasing(cuts, start, |value| - 1)
    requires forall k :: 0 <= k < |value| ==> !IsSpace(value[k])
    ensures forall j, k :: (0 <= j < |Between(value, start, cuts)| && 0 <= k < |Between(value, start, cuts)[j]|
      ==> !IsSpace(Between(value, start, cuts)[j][k]))
    decreases |cuts|
  {
    if cuts != [] {
      BetweenNoSpace(value, cuts[0] + 1, cuts[1..]);
    }
  }

  /** An empty span has no arguments, and a trailing top-level comma
      leaves no empty argument behind. */
  lemma SplitArgsExamples()
    ensures SplitArgs("()") == []
    ensures SplitArgs("(a,)") == ["a"]
  {
    var v := "(a,)";
    assert IsCut(v, 2) by {
      assert StateAt(v, 1, 2) == Next(StateAt(v, 1, 1), 'a');
    }
    var st := Next(Outside, 'a');
    assert st == Outside;
    assert v[1..2] == "a";
    assert PiecesFrom(v, 3, Next(st, ','), 3, ["a"]) == ["a"];
    assert PiecesFrom(v, 2, st, 1, []) == PiecesFrom(v, 3, Next(st, ','), 3, [v[1..2]]);
    assert PiecesFrom(v, 1, Outside, 1, []) == PiecesFrom(v, 2, st, 1, []);
    assert Pieces(v) == ["a"];
    TrimKeeps("a");
  }
}

=== FILE: codes.dfy ===
/** The short names the minifier gives captured identifiers: spreadsheet
    column codes (`numberToColumn`, lines 376-385) handed out in order,
    skipping codes already taken (`createNewKeys`, lines 388-404). */
module Codes {
  import opened Text

  /** `String.fromCharCode(65 + d)` for a digit `d` of base 26. */
  function Letter(d: nat): (c: char)
    requires d < 26
    ensures 'A' <= c <= 'Z'
  {
    (65 + d) as char
  }

  /** The value of an upper-case letter as a digit. */
  function Digit(c: char): (d: nat)
    requires 'A' <= c <= 'Z'
    ensures d < 26 && Letter(d) == c
  {
    (c as int - 65) as nat
  }

  predicate IsLetter(c: char)
  {
    'A' <= c <= 'Z'
  }

  /** A column code: one or more upper-case letters. */
  predicate IsCode(s: string)
  {
    s != [] && forall k :: 0 <= k < |s| ==> IsLetter(s[k])
  }

  /** Column `num` in bijective base 26: 0 is A, 25 is Z, 26 is AA, 701 is
      ZZ and 702 is AAA. */
  function Column(num: nat): (r: string)
    ensures IsCode(r)
    decreases num
  {
    if num < 26 then [Letter(num)]
    else Column(num / 26 - 1) + [Letter(num % 26)]
  }

  /** The inverse reading: the number whose column code `s` is. */
  function ColumnNumber(s: string): nat
    requires IsCode(s)
    decreases |s|
  {
    if |s| == 1 then Digit(s[0])
    else (ColumnNumber(s[..|s| - 1]) + 1) * 26 + Digit(s[|s| - 1])
  }

  /** Reading a column code back gives the number it was made from. */
  lemma {:induction false} ColumnRoundTrip(num: nat)
    ensures ColumnNumber(Column(num)) == num
    decreases num
  {
    if num >= 26 {
      var q := num / 26 - 1;
      var s := Column(num);
      ColumnRoundTrip(q);
      assert s[..|s| - 1] == Column(q);
      assert (q + 1) * 26 + num % 26 == num;
    }
  }

  /** Every column code is the code of its number. */
  lemma {:induction false} CodeRoundTrip(s: string)
    requires IsCode(s)
    ensures Column(ColumnNumber(s)) == s
    decreases |s|
  {
    if |s| > 1 {
      var init := s[..|s| - 1];
      var n := ColumnNumber(s);
      var d := Digit(s[|s| - 1]);
      CodeRoundTrip(init);
      assert n == (ColumnNumber(init) + 1) * 26 + d;
      assert n / 26 - 1 == ColumnNumber(init) && n % 26 == d;
      assert s == init + [s[|s| - 1]];
    }
  }

  /** Different numbers get different codes. */
  lemma ColumnInjective(m: nat, n: nat)
    requires Column(m) == Column(n)
    ensures m == n
  {
    ColumnRoundTrip(m);
    ColumnRoundTrip(n);
  }

  /** The code has one letter more per power of 26. */
  lemma ColumnLengths()
    ensures Column(0) == "A" && Column(25) == "Z"
    ensures Column(26) == "AA" && Column(27) == "AB"
    ensures Column(701) == "ZZ" && Column(702) == "AAA"
  {
    assert Column(26) == Column(0) + "A";
    assert Column(27) == Column(0) + "B";
    assert Column(701) == Column(25) + "Z";
    assert Column(26) == "AA";
    assert Column(702) == Column(26) + "A";
  }

  /** The letters the loop of `numberToColumn` has still to produce while
      its counter is `x`. */
  function Pending(x: nat): string
  {
    if x == 0 then [] else Column(x - 1)
  }

  /** One round of the loop peels off the last letter. */
  lemma PendingStep(x: nat, r: string)
    requires x > 0
    ensures Pending((x - 1) / 26) + ([Letter((x - 1) % 26)] + r) == Pending(x) + r
  {
    var y := x - 1;
    assert Pending(y / 26) + [Letter(y % 26)] == Column(y);
  }

  /** `numberToColumn(num)`: the source's loop. */
  method NumberToColumn(num: nat) returns (r: string)
    ensures r == Column(num)
  {
    var x: nat := num + 1;
    r := [];
    while x > 0
      invariant Pending(x) + r == Column(num)
      decreases x
    {
      PendingStep(x, r);
      r := [Letter((x - 1) % 26)] + r;
      x := (x - 1) / 26;
    }
    assert [] + r == r;
  }

  // ---------- handing out codes ----------

  /** The codes in `used` that belong to numbers `n` or larger. */
  function Above(used: set<string>, n: nat): set<string>
  {
    set s | s in used && IsCode(s) && ColumnNumber(s) >= n
  }

  lemma AboveShrinks(used: set<string>, n: nat)
    requires Column(n) in used
    ensures |Above(used, n + 1)| < |Above(used, n)|
  {
    ColumnRoundTrip(n);
    var big, small := Above(used, n), Above(used, n + 1);
    var gone := big - small;
    assert Column(n) in gone;
    assert big == small + gone && small * gone == {};
    assert |gone| >= 1;
  }

  /** The `while (true)` of lines 393-401: the first code from number `n`
      on that is not taken. */
  function FirstFree(used: set<string>, n: nat): (m: nat)
    ensures m >= n && Column(m) !in used
    decreases |Above(used, n)|
  {
    if Column(n) !in used then n
    else
      AboveShrinks(used, n);
      FirstFree(used, n + 1)
  }

  /** Every code skipped on the way is taken: the code found is the least
      free one from `n` on. */
  lemma {:induction false} FirstFreeLeast(used: set<string>, n: nat, k: nat)
    requires n <= k < FirstFree(used, n)
    ensures Column(k) in used
    decreases |Above(used, n)|
  {
    if Column(n) in used && k > n {
      AboveShrinks(used, n);
      FirstFreeLeast(used, n + 1, k);
    }
  }

  /** The `for` of lines 391-402 from key `i` of `count`: key `i` gets the
      first free code from number `i` on, which is then taken. */
  function CodesFrom(used: set<string>, i: nat, count: nat): (r: seq<string>)
    requires i <= count
    ensures |r| == count - i
    decreases count - i
  {
    if i == count then []
    else
      var code := Column(FirstFree(used, i));
      [code] + CodesFrom(used + {code}, i + 1, count)
  }

  /** Column codes, none of them in `used`, and no two alike. */
  predicate FreshCodes(used: set<string>, r: seq<string>)
  {
    && (forall j :: 0 <= j < |r| ==> r[j] !in used && IsCode(r[j]))
    && (forall j, k :: 0 <= j < k < |r| ==> r[j] != r[k])
  }

  /** The codes handed out are column codes, none of them taken
      beforehand, and no two alike. */
  lemma {:induction false} CodesFresh(used: set<string>, i: nat, count: nat)
    requires i <= count
    ensures FreshCodes(used, CodesFrom(used, i, count))
    decreases count - i
  {
    if i < count {
      var code := Column(FirstFree(used, i));
      var rest := CodesFrom(used + {code}, i + 1, count);
      CodesFresh(used + {code}, i + 1, count);
      FreshCons(used, code, rest);
    }
  }

  lemma FreshCons(used: set<string>, code: string, rest: seq<string>)
    requires FreshCodes(used + {code}, rest)
    requires code !in used && IsCode(code)
    ensures FreshCodes(used, [code] + rest)
  {
    var r := [code] + rest;
    assert forall j :: 1 <= j < |r| ==> r[j] == rest[j - 1];
  }

  /** The names taken before any code is handed out: the first LAMBDA's
      parameters, upper-cased. */
  function Taken(firstKeys: seq<string>): set<string>
  {
    set k | k in firstKeys :: UpperStr(k)
  }

  /** `createNewKeys()`: one code per captured identifier. */
  function NewKeys(firstKeys: seq<string>, keys: seq<string>): (r: seq<string>)
    ensures |r| == |keys|
    ensures forall j :: 0 <= j < |r| ==> IsCode(r[j])
    ensures forall j, k :: 0 <= j < k < |r| ==> r[j] != r[k]
    ensures forall j, f :: 0 <= j < |r| && f in firstKeys ==> r[j] != UpperStr(f)
  {
    CodesFresh(Taken(firstKeys), 0, |keys|);
    CodesFrom(Taken(firstKeys), 0, |keys|)
  }

  /** The elements of a list, as a set. */
  function Elements(xs: seq<string>): set<string>
  {
    set x | x in xs
  }

  /** Each code is the first free one from the key's own number on, where
      the codes handed out before it count as taken. */
  lemma {:induction false} CodesFromFirstFree(used: set<string>, i: nat, count: nat, j: nat)
    requires i <= count && j < count - i
    ensures CodesFrom(used, i, count)[j]
         == Column(FirstFree(used + Elements(CodesFrom(used, i, count)[..j]), i + j))
    decreases j
  {
    var r := CodesFrom(used, i, count);
    var code := Column(FirstFree(used, i));
    var rest := CodesFrom(used + {code}, i + 1, count);
    assert r == [code] + rest;
    if j == 0 {
      FirstCode(used, i, code, rest, r);
    } else {
      CodesFromFirstFree(used + {code}, i + 1, count, j - 1);
      LaterCode(used, i, code, rest, r, j);
    }
  }

  /** The first code handed out is the first free one. */
  lemma FirstCode(used: set<string>, i: nat, code: string, rest: seq<string>, r: seq<string>)
    requires r == [code] + rest && code == Column(FirstFree(used, i))
    ensures r[0] == Column(FirstFree(used + Elements(r[..0]), i + 0))
  {
    assert Elements(r[..0]) == {};
    assert used + {} == used;
  }

  /** Code `j` of `[code] + rest` is code `j - 1` of `rest`, with `code`
      counted among the ones handed out before it. */
  lemma LaterCode(used: set<string>, i: nat, code: string, rest: seq<string>, r: seq<string>, j: nat)
    requires r == [code] + rest && 0 < j <= |rest|
    requires rest[j - 1] == Column(FirstFree(used + {code} + Elements(rest[..j - 1]), i + 1 + (j - 1)))
    ensures r[j] == Column(FirstFree(used + Elements(r[..j]), i + j))
  {
    assert r[..j] == [code] + rest[..j - 1];
    assert used + Elements(r[..j]) == used + {code} + Elements(rest[..j - 1]);
  }

  /** When no code is taken beforehand, key `j` gets column `j`: A, B,
      C, ... */
  lemma {:induction false} CodesSequential(used: set<string>, i: nat, count: nat)
    requires i <= count
    requires forall m :: i <= m ==> Column(m) !in used
    ensures CodesFrom(used, i, count) == seq(count - i, j requires 0 <= j => Column(i + j))
    decreases count - i
  {
    if i < count {
      var code := Column(i);
      assert FirstFree(used, i) == i;
      forall m | i + 1 <= m ensures Column(m) !in used + {code} {
        if Column(m) == code {
          ColumnInjective(m, i);
        }
      }
      CodesSequential(used + {code}, i + 1, count);
    }
  }

  /** With no first-LAMBDA parameter of code shape, identifier `j` is
      renamed to column `j`. */
  lemma NewKeysSequential(firstKeys: seq<string>, keys: seq<string>)
    requires forall f :: f in firstKeys ==> !IsCode(UpperStr(f))
    ensures NewKeys(firstKeys, keys) == seq(|keys|, j requires 0 <= j => Column(j))
  {
    CodesSequential(Taken(firstKeys), 0, |keys|);
  }
}

=== FILE: indent.dfy ===
/** The indentation pass (`indentLines` and `isOpen`, lines 291-319):
    each line is prefixed by blanks for the current level; a line that
    starts with `)` closes a level before it is printed and an open line
    opens one after. */
module Indent {
  import opened Text

  /** The characters that, right after a `)`, keep an expression going. */
  const Continuers: string := "+-*/=!<>"

  /** What position `k` adds to `isOpen`'s depth: `(` opens, `)` closes,
      and a `)` followed by a continuer opens again. */
  function Delta(line: string, k: nat): int
    requires k < |line|
  {
    if line[k] == '(' then 1
    else if line[k] == ')' then
      if k < |line| - 1 && line[k + 1] in Continuers then 0 else -1
    else 0
  }

  /** The depth after the first `n` positions. */
  function BalanceTo(line: string, n: nat): int
    requires n <= |line|
  {
    if n == 0 then 0 else BalanceTo(line, n - 1) + Delta(line, n - 1)
  }

  /** `isOpen(S)`: the line leaves more opened than closed. */
  predicate IsOpen(line: string)
  {
    BalanceTo(line, |line|) > 0
  }

  /** The depth counts `(` minus `)`, plus the closings followed by a
      continuer; it is never below the plain difference. */
  lemma {:induction false} BalanceBounds(line: string, n: nat)
    requires n <= |line|
    ensures Count(line[..n], '(') - Count(line[..n], ')') <= BalanceTo(line, n) <= Count(line[..n], '(')
    decreases n
  {
    if n > 0 {
      BalanceBounds(line, n - 1);
      assert line[..n] == line[..n - 1] + [line[n - 1]];
      CountConcat(line[..n - 1], [line[n - 1]], '(');
      CountConcat(line[..n - 1], [line[n - 1]], ')');
    }
  }

  /** A `)` at `k` followed by a continuer: it does not close. */
  predicate ContinuedAt(line: string, k: nat)
    requires k < |line|
  {
    line[k] == ')' && k + 1 < |line| && line[k + 1] in Continuers
  }

  /** How many of the first `n` positions hold a continued `)`. */
  function Continued(line: string, n: nat): nat
    requires n <= |line|
  {
    if n == 0 then 0 else Continued(line, n - 1) + (if ContinuedAt(line, n - 1) then 1 else 0)
  }

  /** The depth is the number of `(` minus the number of `)` that are
      not followed by a continuer. */
  lemma {:induction false} BalanceExact(line: string, n: nat)
    requires n <= |line|
    ensures BalanceTo(line, n) == Count(line[..n], '(') - Count(line[..n], ')') + Continued(line, n)
    decreases n
  {
    if n > 0 {
      BalanceExact(line, n - 1);
      assert line[..n] == line[..n - 1] + [line[n - 1]];
      CountConcat(line[..n - 1], [line[n - 1]], '(');
      CountConcat(line[..n - 1], [line[n - 1]], ')');
    }
  }

  /** `isOpen` holds exactly when the `(` outnumber the closing `)`, a `)`
      before a continuer not counting as closing. */
  lemma OpenExactly(line: string)
    ensures IsOpen(line) <==> Count(line, '(') > Count(line, ')') - Continued(line, |line|)
  {
    BalanceExact(line, |line|);
    assert line[..|line|] == line;
  }

  /** A balanced group followed by an operator leaves the line open; the
      same group alone does not. */
  lemma ContinuedOpen()
    ensures IsOpen("(a)+")
    ensures !IsOpen("(a)")
  {
    assert BalanceTo("(a)+", 4) == 1;
    assert BalanceTo("(a)", 3) == 0;
  }

  /** A line with more `(` than `)` is open; a line without `(` is not. */
  lemma OpenByParens(line: string)
    ensures Count(line, '(') > Count(line, ')') ==> IsOpen(line)
    ensures '(' !in line ==> !IsOpen(line)
  {
    BalanceBounds(line, |line|);
    assert line[..|line|] == line;
    CountZero(line, '(');
  }

  /** `" ".repeat(Math.max(0, indentSize * level))`'s length: the larger
      of 0 and `size * level`. */
  function Pad(size: int, level: int): (n: nat)
    ensures n >= size * level
    ensures n == 0 || n == size * level
    ensures size >= 0 && level <= 0 ==> n == 0
  {
    if size * level > 0 then size * level else 0
  }

  predicate Closes(line: string)
  {
    line != [] && line[0] == ')'
  }

  /** The level each line is printed at, starting from `indent`. */
  function LevelsFrom(lines: seq<string>, indent: int): (r: seq<int>)
    ensures |r| == |lines|
  {
    if lines == [] then []
    else
      var level := if Closes(lines[0]) then indent - 1 else indent;
      [level] + LevelsFrom(lines[1..], if IsOpen(lines[0]) then level + 1 else level)
  }

  /** The `map` of lines 313-318. */
  function IndentFrom(lines: seq<string>, indent: int, size: int): (r: seq<string>)
    ensures |r| == |lines|
  {
    if lines == [] then []
    else
      var level := if Closes(lines[0]) then indent - 1 else indent;
      [Spaces(Pad(size, level)) + lines[0]]
        + IndentFrom(lines[1..], if IsOpen(lines[0]) then level + 1 else level, size)
  }

  /** `indentLines(text)`. */
  function IndentLines(text: string, eol: char, size: int): string
  {
    Join(IndentFrom(Split(text, eol), 0, size), [eol])
  }

  /** Every line is printed as blanks for its level followed by the line. */
  lemma {:induction false} IndentFromLevels(lines: seq<string>, indent: int, size: int)
    ensures forall k :: 0 <= k < |lines| ==>
      IndentFrom(lines, indent, size)[k] == Spaces(Pad(size, LevelsFrom(lines, indent)[k])) + lines[k]
  {
    if lines != [] {
      var level := if Closes(lines[0]) then indent - 1 else indent;
      var next := if IsOpen(lines[0]) then level + 1 else level;
      IndentFromLevels(lines[1..], next, size);
    }
  }

  /** Consecutive lines differ by at most one level: a line is one deeper
      than the one before exactly when that one was open and this one does
      not start with `)`, and one shallower in the opposite case. */
  lemma {:induction false} LevelSteps(lines: seq<string>, indent: int, k: nat)
    requires k + 1 < |lines|
    ensures var l := LevelsFrom(lines, indent);
      l[k + 1] == l[k] + (if IsOpen(lines[k]) then 1 else 0) - (if Closes(lines[k + 1]) then 1 else 0)
    decreases k
  {
    var level := if Closes(lines[0]) then indent - 1 else indent;
    var next := if IsOpen(lines[0]) then level + 1 else level;
    if k > 0 {
      LevelSteps(lines[1..], next, k - 1);
    }
  }

  /** A line starting with `)` is never padded deeper than the line
      before it. */
  lemma CloserNoDeeper(lines: seq<string>, indent: int, size: int, k: nat)
    requires size >= 0
    requires k + 1 < |lines| && Closes(lines[k + 1])
    ensures var l := LevelsFrom(lines, indent);
      Pad(size, l[k + 1]) <= Pad(size, l[k])
  {
    var l := LevelsFrom(lines, indent);
    LevelSteps(lines, indent, k);
    assert size * l[k] - size * l[k + 1] == size * (l[k] - l[k + 1]);
  }

  /** Lines without parens stay at the starting level. */
  lemma {:induction false} LevelsFlat(lines: seq<string>, indent: int)
    requires forall k :: 0 <= k < |lines| ==> '(' !in lines[k] && ')' !in lines[k]
    ensures forall k :: 0 <= k < |lines| ==> LevelsFrom(lines, indent)[k] == indent
  {
    if lines != [] {
      OpenByParens(lines[0]);
      LevelsFlat(lines[1..], indent);
    }
  }

  lemma {:induction false} WithoutBlanksJoin(xs: seq<string>, ys: seq<string>, eol: char)
    requires |xs| == |ys|
    requires forall j :: 0 <= j < |xs| ==> Without(xs[j], ' ') == Without(ys[j], ' ')
    ensures Without(Join(xs, [eol]), ' ') == Without(Join(ys, [eol]), ' ')
  {
    if |xs| > 1 {
      WithoutBlanksJoin(xs[1..], ys[1..], eol);
      WithoutConcat(xs[0] + [eol], Join(xs[1..], [eol]), ' ');
      WithoutConcat(xs[0], [eol], ' ');
      WithoutConcat(ys[0] + [eol], Join(ys[1..], [eol]), ' ');
      WithoutConcat(ys[0], [eol], ' ');
    }
  }

  lemma {:induction false} SpacesVanish(n: nat, line: string)
    ensures Without(Spaces(n) + line, ' ') == Without(line, ' ')
    decreases n
  {
    if n > 0 {
      assert Spaces(n) + line == [' '] + (Spaces(n - 1) + line);
      SpacesVanish(n - 1, line);
    } else {
      assert Spaces(n) + line == line;
    }
  }

  /** Indentation only adds blanks: with the blanks deleted, the output is
      the input with its blanks deleted. */
  lemma IndentOnlyAddsBlanks(text: string, eol: char, size: int)
    ensures Without(IndentLines(text, eol, size), ' ') == Without(text, ' ')
  {
    var lines := Split(text, eol);
    var out := IndentFrom(lines, 0, size);
    IndentFromLevels(lines, 0, size);
    forall j | 0 <= j < |out| ensures Without(out[j], ' ') == Without(lines[j], ' ') {
      SpacesVanish(Pad(size, LevelsFrom(lines, 0)[j]), lines[j]);
    }
    WithoutBlanksJoin(out, lines, eol);
  }

  /** Indentation keeps the number of lines: the output splits back into
      the indented lines, one per input line. */
  lemma IndentKeepsLines(text: string, eol: char, size: int)
    requires eol != ' '
    ensures Split(IndentLines(text, eol, size), eol) == IndentFrom(Split(text, eol), 0, size)
    ensures |Split(IndentLines(text, eol, size), eol)| == |Split(text, eol)|
  {
    var lines := Split(text, eol);
    var out := IndentFrom(lines, 0, size);
    IndentFromLevels(lines, 0, size);
    forall j | 0 <= j < |out| ensures eol !in out[j] {
      var pad := Spaces(Pad(size, LevelsFrom(lines, 0)[j]));
      assert eol !in pad;
      assert out[j] == pad + lines[j];
    }
    SplitJoin(out, eol);
  }

  /** Text without parens is left exactly as it is: every line stays at
      level zero, which pads nothing whatever the indent size. */
  lemma IndentNoParens(text: string, eol: char, size: int)
    requires '(' !in text && ')' !in text
    ensures IndentLines(text, eol, size) == text
  {
    var lines := Split(text, eol);
    IndentFromLevels(lines, 0, size);
    forall k | 0 <= k < |lines| ensures '(' !in lines[k] && ')' !in lines[k] {
      SplitPartsCount(text, eol, k, '(');
      SplitPartsCount(text, eol, k, ')');
      CountZero(text, '(');
      CountZero(text, ')');
      CountZero(lines[k], '(');
      CountZero(lines[k], ')');
    }
    LevelsFlat(lines, 0);
    forall k | 0 <= k < |lines| ensures IndentFrom(lines, 0, size)[k] == lines[k] {
      assert Spaces(0) + lines[k] == lines[k];
    }
    assert IndentFrom(lines, 0, size) == lines;
  }

  lemma SplitPartsCount(text: string, eol: char, k: nat, c: char)
    requires k < |Split(text, eol)|
    ensures Count(Split(text, eol)[k], c) <= Count(text, c)
  {
    var parts := Split(text, eol);
    JoinCount(parts, [eol], c);
    SumCountAt(parts, k, c);
    assert (|parts| - 1) * Count([eol], c) >= 0;
  }
}

=== FILE: minify.dfy ===
/** The two minifying passes: renaming captured identifiers to column
    codes (`replaceKeys`, lines 358-438) and deleting line breaks outside
    literals (`deleteBreak`, lines 445-455). */
module Minify {
  import opened Wrappers
  import opened Text
  import opened Codes

  /** `controlChar` of line 363: the characters that end an identifier,
      namely blank, the operators and separators of `=+-*,/(){}`, and the
      line terminator. */
  predicate IsControl(c: char, eol: char)
  {
    c == ' ' || c == '=' || c == '+' || c == '-' || c == '*' || c == '/' || c == ','
    || c == '(' || c == ')' || c == '{' || c == '}' || c == eol
  }

  /** Where `getText(i)` stops: the first control character at or after
      `i`, or the end of the text. */
  function TokenEnd(text: string, i: nat, eol: char): (j: nat)
    requires i <= |text|
    ensures i <= j <= |text|
    ensures forall k :: i <= k < j ==> !IsControl(text[k], eol)
    ensures j < |text| ==> IsControl(text[j], eol)
    decreases |text| - i
  {
    if i == |text| || IsControl(text[i], eol) then i
    else TokenEnd(text, i + 1, eol)
  }

  /** `getText(index)`, lines 366-373. */
  function Token(text: string, i: nat, eol: char): (r: string)
    requires i <= |text|
    ensures |r| <= |text| - i && r == text[i..i + |r|]
    ensures forall k :: 0 <= k < |r| ==> !IsControl(r[k], eol)
  {
    text[i..TokenEnd(text, i, eol)]
  }

  /** `keys.indexOf(S)`. */
  function IndexOf(keys: seq<string>, s: string): (r: Option<nat>)
    ensures r.Some? ==> r.value < |keys| && keys[r.value] == s
    ensures r.Some? ==> forall k :: 0 <= k < r.value ==> keys[k] != s
    ensures r.None? ==> s !in keys
    decreases |keys|
  {
    if keys == [] then None
    else if keys[0] == s then Some(0)
    else match IndexOf(keys[1..], s)
      case None => None
      case Some(k) => Some(k + 1)
  }

  /** `prevC` of line 410: the character before `i` in the text being
      scanned (not in the output), a blank at the start. */
  function Prev(text: string, i: nat): char
    requires i <= |text|
  {
    if i == 0 then ' ' else text[i - 1]
  }

  /** `o` with `pre` put in front, if there is an output at all. */
  function Prepend(pre: string, o: Option<string>): (r: Option<string>)
    ensures r.Some? <==> o.Some?
    ensures r.Some? ==> r.value == pre + o.value
  {
    match o
    case None => None
    case Some(t) => Some(pre + t)
  }

  /** One pass of the body of the `while` of lines 409-436 at position
      `i`: the text emitted and how far `i` moves. Inside a literal, after
      a character that is not a control character, or where the token
      there is no identifier, one character is copied. `None` is the pass
      that makes no progress: an empty identifier matched at a control
      character advances `i` by nothing. When that character is not `"`,
      nothing else changes either, so the loop never ends. A stall on a
      `"` (possible only under a `"` terminator) flips the in-literal flag,
      and the source's next pass copies the quote and goes on; `None`
      does not follow that case. */
  function RenameStep(text: string, i: nat, esc: bool, keys: seq<string>,
                      codes: seq<string>, eol: char): (r: Option<(string, nat)>)
    requires i < |text|
    requires |codes| == |keys|
    ensures r.Some? ==> 1 <= r.value.1 <= |text| - i
  {
    if Toggle(text[i], esc) || !IsControl(Prev(text, i), eol) then Some(([text[i]], 1))
    else Rename(text, i, keys, codes, eol)
  }

  /** The pass at an identifier's possible start: the token there is looked
      up among the identifiers and replaced by its code. */
  function Rename(text: string, i: nat, keys: seq<string>, codes: seq<string>, eol: char)
    : (r: Option<(string, nat)>)
    requires i < |text|
    requires |codes| == |keys|
    ensures r.Some? ==> 1 <= r.value.1 <= |text| - i
  {
    match IndexOf(keys, Token(text, i, eol))
    case Some(r) => if keys[r] == [] then None else Some((codes[r], |keys[r]|))
    case None => Some(([text[i]], 1))
  }

  /** The `while` of lines 409-436 from position `i` with in-literal flag
      `esc`; `None` when some pass stalls, which is a loop that never ends
      whenever the stall is not on a `"`. The optimizer renames a text that
      starts with `=`, where an empty identifier stalls at position 0. */
  function ReplaceFrom(text: string, i: nat, esc: bool, keys: seq<string>,
                       codes: seq<string>, eol: char): Option<string>
    requires i <= |text|
    requires |codes| == |keys|
    decreases |text| - i
  {
    if i == |text| then Some([])
    else match RenameStep(text, i, esc, keys, codes, eol)
      case None => None
      case Some((out, n)) =>
        Prepend(out, ReplaceFrom(text, i + n, Toggle(text[i], esc), keys, codes, eol))
  }

  /** `replaceKeys(text, keys)` with the codes of `createNewKeys()`. */
  function ReplaceKeys(text: string, keys: seq<string>, firstKeys: seq<string>, eol: char): Option<string>
  {
    ReplaceFrom(text, 0, false, keys, NewKeys(firstKeys, keys), eol)
  }

  // ---------- properties of the renaming ----------

  /** A pass fails to progress exactly at an empty identifier. */
  lemma StepStalls(text: string, i: nat, esc: bool, keys: seq<string>, codes: seq<string>, eol: char)
    requires i < |text| && |codes| == |keys|
    ensures RenameStep(text, i, esc, keys, codes, eol).None?
        <==> !Toggle(text[i], esc) && IsControl(Prev(text, i), eol)
             && Token(text, i, eol) == [] && [] in keys
  {
  }

  lemma StepGoes(text: string, i: nat, esc: bool, keys: seq<string>, codes: seq<string>, eol: char)
    requires i < |text| && |codes| == |keys|
    requires [] !in keys
    ensures RenameStep(text, i, esc, keys, codes, eol).Some?
  {
    StepStalls(text, i, esc, keys, codes, eol);
  }

  /** With no empty identifier the loop always ends. */
  lemma {:induction false} ReplaceEnds(text: string, i: nat, esc: bool, keys: seq<string>,
                                       codes: seq<string>, eol: char)
    requires i <= |text| && |codes| == |keys|
    requires [] !in keys
    ensures ReplaceFrom(text, i, esc, keys, codes, eol).Some?
    decreases |text| - i
  {
    if i < |text| {
      StepGoes(text, i, esc, keys, codes, eol);
      var j: nat := i + RenameStep(text, i, esc, keys, codes, eol).value.1;
      var esc' := Toggle(text[i], esc);
      ReplaceEnds(text, j, esc', keys, codes, eol);
      EndsAfterStep(text, i, esc, keys, codes, eol, j, esc');
    }
  }

  lemma EndsAfterStep(text: string, i: nat, esc: bool, keys: seq<string>,
                      codes: seq<string>, eol: char, j: nat, esc': bool)
    requires i < |text| && |codes| == |keys|
    requires RenameStep(text, i, esc, keys, codes, eol).Some?
    requires j == i + RenameStep(text, i, esc, keys, codes, eol).value.1
    requires esc' == Toggle(text[i], esc)
    requires ReplaceFrom(text, j, esc', keys, codes, eol).Some?
    ensures ReplaceFrom(text, i, esc, keys, codes, eol).Some?
  {
  }

  /** Renamed to themselves, identifiers emit what they consume. */
  lemma StepToSelf(text: string, i: nat, esc: bool, keys: seq<string>, eol: char) returns (n: nat)
    requires i < |text|
    requires [] !in keys
    ensures 1 <= n && i + n <= |text|
    ensures RenameStep(text, i, esc, keys, keys, eol) == Some((text[i..i + n], n))
  {
    StepStalls(text, i, esc, keys, keys, eol);
    var (out, m) := RenameStep(text, i, esc, keys, keys, eol).value;
    assert out == text[i..i + m];
    n := m;
  }

  /** Renaming every identifier to itself copies the text: the pass changes
      nothing but the identifiers it finds. */
  lemma {:induction false} RenameToSelf(text: string, i: nat, esc: bool, keys: seq<string>, eol: char)
    requires i <= |text|
    requires [] !in keys
    ensures ReplaceFrom(text, i, esc, keys, keys, eol) == Some(text[i..])
    decreases |text| - i
  {
    if i < |text| {
      var n, esc' := SelfStep(text, i, esc, keys, eol);
      RenameToSelf(text, i + n, esc', keys, eol);
    } else {
      assert text[i..] == [];
    }
  }

  /** One step of the copy: where the loop goes on, and that copying from
      there copies from here. */
  lemma SelfStep(text: string, i: nat, esc: bool, keys: seq<string>, eol: char) returns (n: nat, esc': bool)
    requires i < |text|
    requires [] !in keys
    ensures 1 <= n && i + n <= |text|
    ensures ReplaceFrom(text, i + n, esc', keys, keys, eol) == Some(text[i + n..]) ==>
      ReplaceFrom(text, i, esc, keys, keys, eol) == Some(text[i..])
  {
    n := StepToSelf(text, i, esc, keys, eol);
    esc' := Toggle(text[i], esc);
    if ReplaceFrom(text, i + n, esc', keys, keys, eol) == Some(text[i + n..]) {
      SelfAfterStep(text, i, esc, keys, eol, n, esc');
    }
  }

  lemma SelfAfterStep(text: string, i: nat, esc: bool, keys: seq<string>, eol: char, n: nat, esc': bool)
    requires i < |text| && i + n <= |text|
    requires RenameStep(text, i, esc, keys, keys, eol) == Some((text[i..i + n], n))
    requires esc' == Toggle(text[i], esc)
    requires ReplaceFrom(text, i + n, esc', keys, keys, eol) == Some(text[i + n..])
    ensures ReplaceFrom(text, i, esc, keys, keys, eol) == Some(text[i..])
  {
    ReplaceFromStep(text, i, esc, keys, keys, eol, text[i..i + n], n, esc');
    SliceSplit(text, i, i + n);
  }

  /** With no identifiers the text is copied, whatever the first LAMBDA's
      parameters were. */
  lemma NoKeysIdentity(text: string, firstKeys: seq<string>, eol: char)
    ensures ReplaceKeys(text, [], firstKeys, eol) == Some(text)
  {
    assert NewKeys(firstKeys, []) == [];
    RenameToSelf(text, 0, false, [], eol);
    assert text[0..] == text;
  }

  /** Where an identifier starts after a control character, outside a
      literal, it is replaced by the code of its first occurrence in the
      list, and the scan resumes after it. */
  lemma RenameAt(text: string, i: nat, esc: bool, keys: seq<string>, codes: seq<string>, eol: char, r: nat)
    requires i < |text| && |codes| == |keys|
    requires !Toggle(text[i], esc) && IsControl(Prev(text, i), eol)
    requires r < |keys| && keys[r] != [] && keys[r] == Token(text, i, eol)
    requires forall k :: 0 <= k < r ==> keys[k] != keys[r]
    ensures ReplaceFrom(text, i, esc, keys, codes, eol)
         == Prepend(codes[r], ReplaceFrom(text, i + |keys[r]|, false, keys, codes, eol))
  {
    IndexOfFirst(keys, Token(text, i, eol), r);
    RenameHit(text, i, esc, keys, codes, eol, r);
    ReplaceFromStep(text, i, esc, keys, codes, eol, codes[r], |keys[r]|, false);
  }

  /** The lookup finds the first occurrence. */
  lemma IndexOfFirst(keys: seq<string>, s: string, r: nat)
    requires r < |keys| && keys[r] == s
    requires forall k :: 0 <= k < r ==> keys[k] != s
    ensures IndexOf(keys, s) == Some(r)
  {
  }

  lemma RenameHit(text: string, i: nat, esc: bool, keys: seq<string>, codes: seq<string>, eol: char, r: nat)
    requires i < |text| && |codes| == |keys|
    requires !Toggle(text[i], esc) && IsControl(Prev(text, i), eol)
    requires r < |keys| && keys[r] != [] && IndexOf(keys, Token(text, i, eol)) == Some(r)
    ensures RenameStep(text, i, esc, keys, codes, eol) == Some((codes[r], |keys[r]|))
  {
  }

  /** The loop emits the step's text and goes on after it. */
  lemma ReplaceFromStep(text: string, i: nat, esc: bool, keys: seq<string>,
                        codes: seq<string>, eol: char, out: string, n: nat, esc': bool)
    requires i < |text| && |codes| == |keys|
    requires RenameStep(text, i, esc, keys, codes, eol) == Some((out, n))
    requires esc' == Toggle(text[i], esc)
    ensures ReplaceFrom(text, i, esc, keys, codes, eol)
         == Prepend(out, ReplaceFrom(text, i + n, esc', keys, codes, eol))
  {
  }

  /** Inside a literal, up to the next quote, every character is copied. */
  lemma {:induction false} LiteralKept(text: string, i: nat, j: nat, keys: seq<string>,
                                       codes: seq<string>, eol: char)
    requires i <= j <= |text| && |codes| == |keys|
    requires forall k :: i <= k < j ==> text[k] != Quote
    ensures ReplaceFrom(text, i, true, keys, codes, eol)
         == Prepend(text[i..j], ReplaceFrom(text, j, true, keys, codes, eol))
    decreases j - i
  {
    if i < j {
      LiteralKept(text, i + 1, j, keys, codes, eol);
      LiteralCons(text, i, j, keys, codes, eol);
    } else {
      PrependTwice([], [], ReplaceFrom(text, j, true, keys, codes, eol));
      assert text[i..j] == [];
    }
  }

  /** Inside a literal a character other than the quote is copied. */
  lemma LiteralStep(text: string, i: nat, keys: seq<string>, codes: seq<string>, eol: char)
    requires i < |text| && |codes| == |keys| && text[i] != Quote
    ensures ReplaceFrom(text, i, true, keys, codes, eol)
         == Prepend([text[i]], ReplaceFrom(text, i + 1, true, keys, codes, eol))
  {
    assert RenameStep(text, i, true, keys, codes, eol) == Some(([text[i]], 1));
  }

  /** A character other than the quote, put in front of a copied stretch
      of a literal, is copied with it. */
  lemma LiteralCons(text: string, i: nat, j: nat, keys: seq<string>, codes: seq<string>, eol: char)
    requires i < j <= |text| && |codes| == |keys| && text[i] != Quote
    requires ReplaceFrom(text, i + 1, true, keys, codes, eol)
          == Prepend(text[i + 1..j], ReplaceFrom(text, j, true, keys, codes, eol))
    ensures ReplaceFrom(text, i, true, keys, codes, eol)
         == Prepend(text[i..j], ReplaceFrom(text, j, true, keys, codes, eol))
  {
    LiteralStep(text, i, keys, codes, eol);
    PrependTwice([text[i]], text[i + 1..j], ReplaceFrom(text, j, true, keys, codes, eol));
    assert text[i..j] == [text[i]] + text[i + 1..j];
  }

  lemma PrependTwice(a: string, b: string, o: Option<string>)
    ensures Prepend(a, Prepend(b, o)) == Prepend(a + b, o)
    ensures Prepend([], o) == o
  {
    match o
    case None =>
    case Some(t) =>
      assert a + (b + t) == (a + b) + t;
      assert [] + t == t;
  }

  /** An empty identifier met at a control character outside a literal
      hangs the source's loop. */
  lemma EmptyKeyHangs(keys: seq<string>, eol: char)
    requires [] in keys
    ensures ReplaceKeys("(", keys, [], eol) == None
  {
    assert Token("(", 0, eol) == [];
  }

  // ---------- deleting line breaks ----------

  /** The `for` of lines 448-452 over `s` with in-literal flag `esc`: a
      terminator is dropped unless it is inside a literal. */
  function DeleteFrom(s: string, esc: bool, eol: char): (r: string)
    ensures |r| <= |s|
  {
    if s == [] then []
    else
      var esc' := Toggle(s[0], esc);
      (if esc' || s[0] != eol then [s[0]] else []) + DeleteFrom(s[1..], esc', eol)
  }

  /** `deleteBreak(text)`. */
  function DeleteBreak(text: string, eol: char): string
  {
    DeleteFrom(text, false, eol)
  }

  /** Only terminators go: every other character is kept as often as it
      occurs. */
  lemma {:induction false} DeleteKeepsOthers(s: string, esc: bool, eol: char, c: char)
    requires c != eol
    ensures Count(DeleteFrom(s, esc, eol), c) == Count(s, c)
  {
    if s != [] {
      var esc' := Toggle(s[0], esc);
      DeleteKeepsOthers(s[1..], esc', eol, c);
      CountConcat(if esc' || s[0] != eol then [s[0]] else [], DeleteFrom(s[1..], esc', eol), c);
    }
  }

  /** Without literals every terminator goes. */
  lemma {:induction false} DeleteNoLiterals(s: string, eol: char)
    requires Quote !in s
    ensures DeleteFrom(s, false, eol) == Without(s, eol)
  {
    if s != [] {
      assert s[0] != Quote && Quote !in s[1..];
      DeleteNoLiterals(s[1..], eol);
    }
  }

  /** Deleting twice deletes nothing more: the kept terminators stay inside
      the same literals. */
  lemma {:induction false} DeleteIdempotent(s: string, esc: bool, eol: char)
    requires eol != Quote
    ensures DeleteFrom(DeleteFrom(s, esc, eol), esc, eol) == DeleteFrom(s, esc, eol)
  {
    if s != [] {
      var esc' := Toggle(s[0], esc);
      var rest := DeleteFrom(s[1..], esc', eol);
      DeleteIdempotent(s[1..], esc', eol);
      if esc' || s[0] != eol {
        assert ([s[0]] + rest)[1..] == rest;
      } else {
        assert esc' == esc;
        assert [] + rest == rest;
      }
    }
  }

  /** Inside a literal every character up to the next quote is kept,
      line terminators included. */
  lemma {:induction false} DeleteInLiteral(s: string, j: nat, eol: char)
    requires j <= |s|
    requires forall k :: 0 <= k < j ==> s[k] != Quote
    ensures DeleteFrom(s, true, eol) == s[..j] + DeleteFrom(s[j..], true, eol)
    decreases j
  {
    if j > 0 {
      DeleteInLiteral(s[1..], j - 1, eol);
      assert s[1..][j - 1..] == s[j..];
      assert s[..j] == [s[0]] + s[1..][..j - 1];
    }
  }

  /** Outside a literal every terminator up to the next quote is dropped
      and nothing else. */
  lemma {:induction false} DeleteOutsideLiteral(s: string, j: nat, eol: char)
    requires j <= |s|
    requires forall k :: 0 <= k < j ==> s[k] != Quote
    ensures DeleteFrom(s, false, eol) == Without(s[..j], eol) + DeleteFrom(s[j..], false, eol)
    decreases j
  {
    if j > 0 {
      DeleteOutsideLiteral(s[1..], j - 1, eol);
      assert s[1..][j - 1..] == s[j..];
      assert s[..j] == [s[0]] + s[1..][..j - 1];
      WithoutConcat([s[0]], s[1..][..j - 1], eol);
    }
  }

  /** A literal keeps its contents, terminators included, and its closing
      quote (unless the quote is the terminator itself); deletion resumes
      outside the literal after it. */
  lemma LiteralCloses(s: string, q: nat, eol: char)
    requires q < |s| && s[q] == Quote
    requires forall k :: 0 <= k < q ==> s[k] != Quote
    ensures DeleteFrom(s, true, eol)
         == s[..q] + (if eol == Quote then [] else [Quote]) + DeleteFrom(s[q + 1..], false, eol)
  {
    DeleteInLiteral(s, q, eol);
    assert s[q..][1..] == s[q + 1..];
  }

  /** Outside a literal the terminators before the next quote go, the
      quote is kept, and the literal it opens is scanned as such. */
  lemma LiteralOpens(s: string, q: nat, eol: char)
    requires q < |s| && s[q] == Quote
    requires forall k :: 0 <= k < q ==> s[k] != Quote
    ensures DeleteFrom(s, false, eol) == Without(s[..q], eol) + [Quote] + DeleteFrom(s[q + 1..], true, eol)
  {
    DeleteOutsideLiteral(s, q, eol);
    assert s[q..][1..] == s[q + 1..];
  }

  /** The in-literal flag after reading `s[..k + 1]` from flag `esc`. */
  function FlagAfter(s: string, k: nat, esc: bool): bool
    requires k < |s|
    decreases k
  {
    var e := Toggle(s[0], esc);
    if k == 0 then e else FlagAfter(s[1..], k - 1, e)
  }

  /** Every terminator left stands inside a literal of the output. */
  lemma {:induction false} BreaksOnlyInLiterals(s: string, esc: bool, eol: char)
    requires eol != Quote
    ensures forall k :: (0 <= k < |DeleteFrom(s, esc, eol)| && DeleteFrom(s, esc, eol)[k] == eol)
                        ==> FlagAfter(DeleteFrom(s, esc, eol), k, esc)
  {
    if s != [] {
      var e := Toggle(s[0], esc);
      var rest := DeleteFrom(s[1..], e, eol);
      BreaksOnlyInLiterals(s[1..], e, eol);
      if e || s[0] != eol {
        KeptHead(s[0], rest, esc, eol);
      } else {
        assert DeleteFrom(s, esc, eol) == rest;
      }
    }
  }

  lemma KeptHead(c: char, rest: string, esc: bool, eol: char)
    requires Toggle(c, esc) || c != eol
    requires forall k :: 0 <= k < |rest| && rest[k] == eol ==> FlagAfter(rest, k, Toggle(c, esc))
    ensures forall k :: 0 <= k < |[c] + rest| && ([c] + rest)[k] == eol ==> FlagAfter([c] + rest, k, esc)
  {
    var r := [c] + rest;
    forall k | 0 <= k < |r| && r[k] == eol ensures FlagAfter(r, k, esc) {
      if k > 0 {
        assert r[1..] == rest && r[k] == rest[k - 1];
      }
    }
  }

  lemma DeleteBreakIdempotent(text: string, eol: char)
    requires eol != Quote
    ensures DeleteBreak(DeleteBreak(text, eol), eol) == DeleteBreak(text, eol)
  {
    DeleteIdempotent(text, false, eol);
  }
}

=== FILE: optimizer.dfy ===
/** `lambdaOptimizer(text, options)`, lines 110-459: the stages run in
    order over the text, the readable ones or the minifying ones as
    `minify` says. */
module Optimizer {
  import opened Wrappers
  import opened Text
  import opened Options
  import opened Preprocess
  import opened Scanner
  import opened Indent
  import opened Spacing
  import opened Minify

  /** The text after cleaning and breaking up calls (lines 226 and 285),
      with the identifiers collected on the way. */
  function Broken(text: string, cfg: Config): Scan
    requires Supported(cfg)
  {
    BreakArgs(cfg, InitializeText(text, cfg.eol))
  }

  /** The optimizer. `None` is the run that never returns: the renaming
      loop met an empty identifier. */
  function LambdaOptimizer(text: string, o: Overrides): (r: Option<string>)
    requires Supported(Merge(o))
    ensures !Merge(o).minify ==> r.Some?
  {
    var cfg := Merge(o);
    var scan := Broken(text, cfg);
    if !cfg.minify then
      Some(InsertSpaces(IndentLines(scan.text, cfg.eol, cfg.indentSize), cfg.spacingKeys))
    else match ReplaceKeys(scan.text, scan.keys, scan.firstKeys, cfg.eol)
      case None => None
      case Some(t) => Some(DeleteBreak(t, cfg.eol))
  }

  /** Readable output is the broken-up text with blanks added and nothing
      else, when the spacing keys only add blanks. */
  lemma ReadableOnlyAddsBlanks(text: string, o: Overrides)
    requires Supported(Merge(o)) && !Merge(o).minify
    requires AllPadOnly(Merge(o).spacingKeys)
    ensures Without(LambdaOptimizer(text, o).value, ' ')
         == Without(Broken(text, Merge(o)).text, ' ')
  {
    var cfg := Merge(o);
    var t := Broken(text, cfg).text;
    IndentOnlyAddsBlanks(t, cfg.eol, cfg.indentSize);
    InsertSpacesOnlyAddsBlanks(IndentLines(t, cfg.eol, cfg.indentSize), cfg.spacingKeys);
  }

  /** With the default spacing keys the readable output differs from the
      broken-up text only in blanks. */
  lemma DefaultReadable(text: string, o: Overrides)
    requires o.spacingKeys.None? && o.minify == Some(false)
    requires o.eol.None? || (o.eol.value != '/' && o.eol.value != '(')
    ensures Supported(Merge(o))
    ensures Without(LambdaOptimizer(text, o).value, ' ')
         == Without(Broken(text, Merge(o)).text, ' ')
  {
    DefaultKeysPadOnly();
    ReadableOnlyAddsBlanks(text, o);
  }

  /** Minifying returns unless an empty identifier was collected. */
  lemma MinifyReturns(text: string, o: Overrides)
    requires Supported(Merge(o)) && Merge(o).minify
    requires [] !in Broken(text, Merge(o)).keys
    ensures LambdaOptimizer(text, o).Some?
  {
    var cfg := Merge(o);
    var scan := Broken(text, cfg);
    ReplaceEnds(scan.text, 0, false, scan.keys, Codes.NewKeys(scan.firstKeys, scan.keys), cfg.eol);
  }

  /** With no identifiers collected, minifying only deletes line breaks. */
  lemma MinifyNoKeys(text: string, o: Overrides)
    requires Supported(Merge(o)) && Merge(o).minify
    requires Broken(text, Merge(o)).keys == []
    ensures LambdaOptimizer(text, o) == Some(DeleteBreak(Broken(text, Merge(o)).text, Merge(o).eol))
  {
    var cfg := Merge(o);
    var scan := Broken(text, cfg);
    RenameToSelf(scan.text, 0, false, [], cfg.eol);
    assert scan.text[0..] == scan.text;
  }

  /** Minified output keeps a line break only inside a literal; without
      literals it has none. A `"` terminator is left aside: there every
      closing quote counts as a line break and is dropped. */
  lemma MinifiedBreaks(text: string, o: Overrides)
    requires Supported(Merge(o)) && Merge(o).minify && Merge(o).eol != Quote
    requires LambdaOptimizer(text, o).Some?
    ensures var r := LambdaOptimizer(text, o).value;
      forall k :: 0 <= k < |r| && r[k] == Merge(o).eol ==> FlagAfter(r, k, false)
    ensures Quote !in LambdaOptimizer(text, o).value ==> Merge(o).eol !in LambdaOptimizer(text, o).value
  {
    var cfg := Merge(o);
    var scan := Broken(text, cfg);
    var t := ReplaceKeys(scan.text, scan.keys, scan.firstKeys, cfg.eol).value;
    var r := LambdaOptimizer(text, o).value;
    BreaksOnlyInLiterals(t, false, cfg.eol);
    if Quote !in r {
      forall k | 0 <= k < |r| ensures !FlagAfter(r, k, false) {
        NoQuoteNoLiteral(r, k);
      }
    }
  }

  /** Without a quote nothing is inside a literal. */
  lemma {:induction false} NoQuoteNoLiteral(s: string, k: nat)
    requires k < |s| && Quote !in s
    ensures !FlagAfter(s, k, false)
    decreases k
  {
    if k > 0 {
      assert s[0] != Quote && Quote !in s[1..];
      NoQuoteNoLiteral(s[1..], k - 1);
    }
  }
}

=== FILE: options.dfy ===
/** The optimizer's configuration (`OptimizerOptions`), its defaults, the
    spread of caller options over them, and the rule-table lookup. */
module Options {
  import opened Wrappers
  import opened Text

  /** One entry of `argRules`: a function name and two per-argument policies,
      each asked about an argument's index and the call's argument count.
      `breakRule` says whether a line break goes before the argument,
      `variable` whether the argument is an identifier to capture. */
  datatype Rule = Rule(name: string, breakRule: (nat, nat) -> bool, variable: (nat, nat) -> bool)

  /** One entry of `spacingKeys`: the text `from` is emitted as `to`. */
  datatype SpacingKey = SpacingKey(from: string, to: string)

  /** `OptimizerOptions`, with the line terminator narrowed to one character. */
  datatype Config = Config(
    eol: char,
    indentSize: int,
    spacingKeys: seq<SpacingKey>,
    argRules: seq<Rule>,
    skipFirstLambda: bool,
    minify: bool)

  /** `Partial<OptimizerOptions>`: `None` is a key the caller left out. */
  datatype Overrides = Overrides(
    eol: Option<char>,
    indentSize: Option<int>,
    spacingKeys: Option<seq<SpacingKey>>,
    argRules: Option<seq<Rule>>,
    skipFirstLambda: Option<bool>,
    minify: Option<bool>)

  const NoOverrides: Overrides := Overrides(None, None, None, None, None, None)

  // ---------- the default rule table ----------

  /** LAMBDA: every argument but the last is a parameter name; no breaks. */
  const LambdaRule: Rule :=
    Rule("LAMBDA", (index: nat, count: nat) => false, (index: nat, count: nat) => index != count - 1)

  /** LET: breaks before each even position; even positions other than the
      last (the body) are names. */
  const LetRule: Rule :=
    Rule("LET", (index: nat, count: nat) => index % 2 == 0,
                (index: nat, count: nat) => index % 2 == 0 && index != count - 1)

  /** IF: breaks before every argument after the condition; no names. */
  const IfRule: Rule :=
    Rule("IF", (index: nat, count: nat) => index > 0, (index: nat, count: nat) => false)

  const MapRule: Rule :=
    Rule("MAP", (index: nat, count: nat) => true, (index: nat, count: nat) => false)

  const ReduceRule: Rule :=
    Rule("REDUCE", (index: nat, count: nat) => true, (index: nat, count: nat) => false)

  const HstackRule: Rule :=
    Rule("HSTACK", (index: nat, count: nat) => true, (index: nat, count: nat) => false)

  const DefaultRules: seq<Rule> := [LambdaRule, LetRule, IfRule, MapRule, ReduceRule, HstackRule]

  /** A key that puts one blank either side of its text. */
  function Around(f: string): SpacingKey
  {
    SpacingKey(f, " " + f + " ")
  }

  /** The default spacing list; multi-character operators come before the
      single characters they start with. */
  const DefaultSpacingKeys: seq<SpacingKey> := [
    SpacingKey("=LAMBDA", "= LAMBDA"),
    Around("==="), Around("!=="), Around("=="), Around("!="),
    Around("=+"), Around("=-"), Around("=*"),
    Around(">="), Around("=>"), Around("<="), Around("=<"),
    Around("<<"), Around(">>"), Around("=/"),
    Around("+"), Around("-"), Around("*"), Around("/"),
    Around("="), Around("<"), Around(">"),
    SpacingKey(",", ", ")
  ]

  /** `{ ...defaults, ...options }`: every key the caller gives wins. */
  function Merge(o: Overrides): Config
  {
    Config(
      o.eol.GetOr('\n'),
      o.indentSize.GetOr(2),
      o.spacingKeys.GetOr(DefaultSpacingKeys),
      o.argRules.GetOr(DefaultRules),
      o.skipFirstLambda.GetOr(true),
      o.minify.GetOr(true))
  }

  /** Without overrides the options are the documented defaults. */
  lemma DefaultConfig()
    ensures Merge(NoOverrides).eol == '\n'
    ensures Merge(NoOverrides).indentSize == 2
    ensures Merge(NoOverrides).spacingKeys == DefaultSpacingKeys
    ensures |Merge(NoOverrides).argRules| == 6
    ensures forall k :: 0 <= k < 6 ==>
      Merge(NoOverrides).argRules[k].name == ["LAMBDA", "LET", "IF", "MAP", "REDUCE", "HSTACK"][k]
    ensures Merge(NoOverrides).skipFirstLambda && Merge(NoOverrides).minify
  {
  }

  /** A caller's key overrides the default and leaves the other keys alone. */
  lemma OverrideWins(o: Overrides)
    ensures o.eol.Some? ==> Merge(o).eol == o.eol.value
    ensures o.minify.Some? ==> Merge(o).minify == o.minify.value
    ensures o.skipFirstLambda.Some? ==> Merge(o).skipFirstLambda == o.skipFirstLambda.value
    ensures o.indentSize.Some? ==> Merge(o).indentSize == o.indentSize.value
    ensures o.eol.None? ==> Merge(o).eol == '\n'
    ensures o.minify.None? ==> Merge(o).minify
  {
  }

  /** The configurations the model covers.
      - A `/` terminator stalls the comment skip of lines 214-217 on any
        `//` outside a literal (`indexOf` finds the `/` itself).
      - An empty spacing `from` stalls `insertSpaces` (`i += 0`), which
        only readable mode runs.
      - A `(` terminator is excluded because the termination argument of
        the call scanner counts the `(` still ahead of it, and inserted
        terminators would add to that count. */
  predicate Supported(cfg: Config)
  {
    && cfg.eol != '/'
    && cfg.eol != '('
    && (!cfg.minify ==> forall k :: 0 <= k < |cfg.spacingKeys| ==> cfg.spacingKeys[k].from != [])
  }

  lemma DefaultsSupported()
    ensures Supported(Merge(NoOverrides))
  {
  }

  /** `rules.find(a => a.name === name)`, as the index of the entry found. */
  function FindRule(rules: seq<Rule>, name: string): (r: Option<nat>)
    ensures r.Some? ==> r.value < |rules| && rules[r.value].name == name
    ensures r.Some? ==> forall k :: 0 <= k < r.value ==> rules[k].name != name
    ensures r.None? ==> forall k :: 0 <= k < |rules| ==> rules[k].name != name
  {
    FirstWhere(rules, (rule: Rule) => rule.name == name)
  }

  /** The default table: LET captures its even, non-final arguments and
      LAMBDA all but its last. */
  lemma DefaultRulePolicies(index: nat, count: nat)
    ensures LetRule.variable(index, count) <==> index % 2 == 0 && index + 1 != count
    ensures LetRule.breakRule(index, count) <==> index % 2 == 0
    ensures LambdaRule.variable(index, count) <==> index + 1 != count
    ensures !LambdaRule.breakRule(index, count)
    ensures IfRule.breakRule(index, count) <==> index > 0
    ensures !IfRule.variable(index, count)
  {
  }
}

=== FILE: preprocess.dfy ===
/** The clean-up pass (`initializreText`, lines 193-225): line comments and
    blanks are dropped, the lines are trimmed and glued together, and the
    text is cut to start at its first LAMBDA behind a fresh `=`. */
module Preprocess {
  import opened Wrappers
  import opened Text

  /** The loop of lines 198-218 from position `i` with in-literal flag
      `lit`. It stops one character short of the end, as the source's
      `i < S.length - 1` does. */
  function StripFrom(s: string, i: nat, lit: bool, eol: char): (r: string)
    requires eol != '/'
    requires i <= |s|
    ensures |r| <= |s| - i
    decreases |s| - i
  {
    if i + 1 >= |s| then []
    else
      var lit' := Toggle(s[i], lit);
      if lit' || s[i..i + 2] != "//" then
        (if s[i] != ' ' then [s[i]] else []) + StripFrom(s, i + 1, lit', eol)
      else
        StripFrom(s, i + FindChar(s[i..], eol), lit', eol)
  }

  /** Blanks are never copied, inside literals or out. */
  lemma {:induction false} StripFromNoBlank(s: string, i: nat, lit: bool, eol: char)
    requires eol != '/'
    requires i <= |s|
    ensures ' ' !in StripFrom(s, i, lit, eol)
    decreases |s| - i
  {
    if i + 1 < |s| {
      var lit' := Toggle(s[i], lit);
      if lit' || s[i..i + 2] != "//" {
        StripFromNoBlank(s, i + 1, lit', eol);
      } else {
        StripFromNoBlank(s, i + FindChar(s[i..], eol), lit', eol);
      }
    }
  }

  /** The stripping loop over the whole text. */
  function Strip(s: string, eol: char): string
    requires eol != '/'
  {
    StripFrom(s, 0, false, eol)
  }

  /** With no comment marker and no blank, the loop copies everything but
      the last character. */
  lemma {:induction false} StripFromCopies(s: string, i: nat, lit: bool, eol: char)
    requires eol != '/'
    requires i < |s|
    requires forall k :: i <= k < |s| ==> s[k] != '/' && s[k] != ' '
    ensures StripFrom(s, i, lit, eol) == s[i..|s| - 1]
    decreases |s| - i
  {
    if i + 1 < |s| {
      StripFromCopies(s, i + 1, Toggle(s[i], lit), eol);
      assert s[i..|s| - 1] == [s[i]] + s[i + 1..|s| - 1];
    }
  }

  lemma StripDropsLast(s: string, eol: char)
    requires eol != '/'
    requires s != []
    requires forall k :: 0 <= k < |s| ==> s[k] != '/' && s[k] != ' '
    ensures Strip(s, eol) == s[..|s| - 1]
  {
    StripFromCopies(s, 0, false, eol);
  }

  /** The loop never reaches the input's last character: no character
      occurs in the output more often than in the input without its last
      character. */
  lemma {:induction false} StripFromInit(s: string, i: nat, lit: bool, eol: char, c: char)
    requires eol != '/'
    requires i < |s|
    ensures Count(StripFrom(s, i, lit, eol), c) <= Count(s[i..|s| - 1], c)
    decreases |s| - i, 1
  {
    if i + 1 < |s| {
      if Toggle(s[i], lit) || s[i..i + 2] != "//" {
        CopyInit(s, i, lit, eol, c);
      } else {
        SkipInit(s, i, lit, eol, c);
      }
    }
  }

  /** The copying step of `StripFromInit`. */
  lemma {:induction false} CopyInit(s: string, i: nat, lit: bool, eol: char, c: char)
    requires eol != '/'
    requires i + 1 < |s|
    requires Toggle(s[i], lit) || s[i..i + 2] != "//"
    ensures Count(StripFrom(s, i, lit, eol), c) <= Count(s[i..|s| - 1], c)
    decreases |s| - i, 0
  {
    StripFromInit(s, i + 1, Toggle(s[i], lit), eol, c);
    CopyStepInit(s, i, lit, eol, c);
  }

  /** The comment-skipping step of `StripFromInit`. */
  lemma {:induction false} SkipInit(s: string, i: nat, lit: bool, eol: char, c: char)
    requires eol != '/'
    requires i + 1 < |s|
    requires !Toggle(s[i], lit) && s[i..i + 2] == "//"
    ensures Count(StripFrom(s, i, lit, eol), c) <= Count(s[i..|s| - 1], c)
    decreases |s| - i, 0
  {
    var lit' := Toggle(s[i], lit);
    var j := i + FindChar(s[i..], eol);
    SkipStep(s, i, lit, eol);
    if j < |s| {
      StripFromInit(s, j, lit', eol, c);
      CountStep(s, i, j, StripFrom(s, i, lit, eol), StripFrom(s, j, lit', eol), c);
    }
  }

  /** The count step of a skipped comment, on the two outputs as values. */
  lemma CountStep(s: string, i: nat, j: nat, out: string, rest: string, c: char)
    requires i <= j < |s|
    requires out == rest && Count(rest, c) <= Count(s[j..|s| - 1], c)
    ensures Count(out, c) <= Count(s[i..|s| - 1], c)
  {
    InitCount(s, i, j, c);
  }

  /** A copied character adds at most its own occurrence. */
  lemma CopyStepInit(s: string, i: nat, lit: bool, eol: char, c: char)
    requires eol != '/'
    requires i + 1 < |s|
    requires Toggle(s[i], lit) || s[i..i + 2] != "//"
    requires Count(StripFrom(s, i + 1, Toggle(s[i], lit), eol), c) <= Count(s[i + 1..|s| - 1], c)
    ensures Count(StripFrom(s, i, lit, eol), c) <= Count(s[i..|s| - 1], c)
  {
    var rest := StripFrom(s, i + 1, Toggle(s[i], lit), eol);
    var head: string := if s[i] != ' ' then [s[i]] else [];
    assert StripFrom(s, i, lit, eol) == head + rest;
    CountConcat(head, rest, c);
    assert s[i..|s| - 1] == [s[i]] + s[i + 1..|s| - 1];
    CountConcat([s[i]], s[i + 1..|s| - 1], c);
  }

  /** A later start below the last character sees no more occurrences. */
  lemma InitCount(s: string, i: nat, j: nat, c: char)
    requires i <= j < |s|
    ensures Count(s[j..|s| - 1], c) <= Count(s[i..|s| - 1], c)
  {
    CountSplit(s[i..|s| - 1], j - i, c);
    assert s[i..|s| - 1][j - i..] == s[j..|s| - 1];
  }

  /** A `//` outside a literal drops everything up to the next line
      terminator, which is kept. */
  lemma CommentSkipped(s: string, i: nat, lit: bool, eol: char, comment: string)
    requires eol != '/'
    requires !lit && eol !in comment
    requires i + 2 + |comment| < |s|
    requires s[i..i + 2] == "//" && s[i + 2..i + 2 + |comment|] == comment && s[i + 2 + |comment|] == eol
    ensures StripFrom(s, i, lit, eol) == StripFrom(s, i + 2 + |comment|, false, eol)
  {
    var rest := s[i..];
    assert rest[0] == '/' && rest[1] == '/';
    forall k | 0 <= k < 2 + |comment| ensures rest[k] != eol {
      if k >= 2 {
        assert rest[k] == comment[k - 2];
      }
    }
    assert rest[2 + |comment|] == eol;
  }

  /** Nothing is invented: every character occurs in the output at most as
      often as in the input. */
  lemma StripFromCount(s: string, i: nat, lit: bool, eol: char, c: char)
    requires eol != '/'
    requires i <= |s|
    ensures Count(StripFrom(s, i, lit, eol), c) <= Count(s[i..], c)
  {
    if i < |s| {
      StripFromInit(s, i, lit, eol, c);
      CountSplit(s[i..], |s| - 1 - i, c);
      assert s[i..][..|s| - 1 - i] == s[i..|s| - 1];
    }
  }

  /** A comment is skipped up to the line terminator. */
  lemma SkipStep(s: string, i: nat, lit: bool, eol: char)
    requires eol != '/'
    requires i + 1 < |s|
    requires !Toggle(s[i], lit) && s[i..i + 2] == "//"
    ensures StripFrom(s, i, lit, eol) == StripFrom(s, i + FindChar(s[i..], eol), Toggle(s[i], lit), eol)
  {
  }

  /** Line 221: split on the terminator, trim each line, drop the empty
      ones and glue the rest together. */
  function Compact(s: string, eol: char): string
  {
    Join(NonEmpty(TrimAll(Split(s, eol))), "")
  }

  /** Gluing removes every terminator and every whitespace character at a
      line's ends, and keeps every other character. */
  lemma CompactCount(s: string, eol: char, c: char)
    ensures Count(Compact(s, eol), c) <= Count(s, c)
    ensures !IsSpace(c) && c != eol ==> Count(Compact(s, eol), c) == Count(s, c)
    ensures Count(Compact(s, eol), eol) == 0
  {
    var parts := Split(s, eol);
    GlueCount(s, eol, c);
    SplitCount(s, eol, c);
    TrimAllCount(parts, c);
    GlueCount(s, eol, eol);
    forall k | 0 <= k < |parts| ensures Count(parts[k], eol) == 0 {
      CountZero(parts[k], eol);
    }
    SumCountZero(parts, eol);
    TrimAllCount(parts, eol);
  }

  lemma GlueCount(s: string, eol: char, c: char)
    ensures Count(Compact(s, eol), c) == SumCount(TrimAll(Split(s, eol)), c)
  {
    var kept := NonEmpty(TrimAll(Split(s, eol)));
    if kept != [] {
      JoinCount(kept, "", c);
    }
  }

  lemma SplitCount(s: string, eol: char, c: char)
    ensures SumCount(Split(s, eol), c) <= Count(s, c)
    ensures c != eol ==> SumCount(Split(s, eol), c) == Count(s, c)
  {
    var parts := Split(s, eol);
    JoinCount(parts, [eol], c);
    var k := Count([eol], c);
    assert c != eol ==> k == 0;
    assert (|parts| - 1) * k >= 0;
  }

  lemma {:induction false} SumCountZero(xs: seq<string>, c: char)
    requires forall k :: 0 <= k < |xs| ==> Count(xs[k], c) == 0
    ensures SumCount(xs, c) == 0
  {
    if xs != [] {
      SumCountZero(xs[1..], c);
    }
  }

  /** Line 224: `"=" + body.slice(body.toUpperCase().indexOf("LAMBDA"))`.
      When there is no LAMBDA, `indexOf` gives -1 and `slice(-1)` keeps
      only the last character. */
  function FromLambda(body: string): (r: string)
    ensures |r| >= 1 && r[0] == '='
    ensures FindSub(UpperStr(body), "LAMBDA").Some? ==> |r| >= 7 && UpperStr(r[1..7]) == "LAMBDA"
    ensures FindSub(UpperStr(body), "LAMBDA").None? ==> |r| <= 2
    ensures forall c :: c != '=' ==> Count(r, c) <= Count(body, c)
  {
    match FindSub(UpperStr(body), "LAMBDA")
    case Some(p) =>
      FromLambdaTail(body, p);
      "=" + body[p..]
    case None =>
      var tail := if body == [] then [] else [body[|body| - 1]];
      FromLambdaLast(body);
      "=" + tail
  }

  lemma FromLambdaTail(body: string, p: nat)
    requires p + 6 <= |body| && UpperStr(body)[p..p + 6] == "LAMBDA"
    ensures UpperStr(("=" + body[p..])[1..7]) == "LAMBDA"
    ensures forall c :: c != '=' ==> Count("=" + body[p..], c) <= Count(body, c)
  {
    FromLambdaName(body, p);
    FromLambdaCounts(body, p);
  }

  lemma FromLambdaName(body: string, p: nat)
    requires p + 6 <= |body| && UpperStr(body)[p..p + 6] == "LAMBDA"
    ensures UpperStr(("=" + body[p..])[1..7]) == "LAMBDA"
  {
    var r := "=" + body[p..];
    var name := body[p..p + 6];
    assert r[1..7] == name;
    assert UpperStr(name) == UpperStr(body)[p..p + 6];
  }

  lemma FromLambdaCounts(body: string, p: nat)
    requires p <= |body|
    ensures forall c :: c != '=' ==> Count("=" + body[p..], c) <= Count(body, c)
  {
    forall c | c != '=' ensures Count("=" + body[p..], c) <= Count(body, c) {
      CountConcat("=", body[p..], c);
      CountSplit(body, p, c);
    }
  }

  lemma FromLambdaLast(body: string)
    ensures forall c :: c != '=' ==>
      Count("=" + (if body == [] then [] else [body[|body| - 1]]), c) <= Count(body, c)
  {
    var tail := if body == [] then [] else [body[|body| - 1]];
    forall c | c != '=' ensures Count("=" + tail, c) <= Count(body, c) {
      CountConcat("=", tail, c);
      if body != [] {
        CountSplit(body, |body| - 1, c);
        assert body[|body| - 1..] == tail;
      }
    }
  }

  /** `LAMBDA`, in any letter case, starts at position `p`. */
  predicate LambdaAt(body: string, p: nat)
  {
    p + 6 <= |body| && UpperStr(body[p..p + 6]) == "LAMBDA"
  }

  /** The search of line 224 sees `LAMBDA` at `p` exactly when it is
      there in some letter case. */
  lemma LambdaAtFound(body: string, p: nat)
    requires p <= |body|
    ensures IsPrefix("LAMBDA", UpperStr(body)[p..]) <==> LambdaAt(body, p)
  {
    if p + 6 <= |body| {
      assert UpperStr(body)[p..][..6] == UpperStr(body[p..p + 6]);
    }
  }

  /** The cut falls at the first LAMBDA, and everything from there to the
      end is kept behind the `=`. */
  lemma FromLambdaCut(body: string, p: nat)
    requires LambdaAt(body, p)
    requires forall q :: 0 <= q < p ==> !LambdaAt(body, q)
    ensures FromLambda(body) == "=" + body[p..]
  {
    var u := UpperStr(body);
    LambdaAtFound(body, p);
    forall q | 0 <= q < p ensures !IsPrefix("LAMBDA", u[q..]) {
      LambdaAtFound(body, q);
    }
    FindSubFirst(u, "LAMBDA", p);
  }

  /** Without any LAMBDA only the last character survives the cut
      (`slice(-1)`), and nothing of an empty text. */
  lemma FromLambdaAbsent(body: string)
    requires forall q :: 0 <= q <= |body| ==> !LambdaAt(body, q)
    ensures FromLambda(body) == "=" + body[|body| - (if body == [] then 0 else 1)..]
  {
    var u := UpperStr(body);
    match FindSub(u, "LAMBDA")
    case None =>
      if body != [] {
        assert body[|body| - 1..] == [body[|body| - 1]];
      }
    case Some(f) =>
      assert u[f..][..6] == u[f..f + 6];
      LambdaAtFound(body, f);
      assert false;
  }

  /** `initializreText(S)`. */
  function InitializeText(s: string, eol: char): string
    requires eol != '/'
  {
    FromLambda(Compact(Strip(s, eol), eol))
  }

  /** The cleaned text starts with `=`, has no blank and no terminator
      after it, and either starts with LAMBDA (in any case) or is at most
      one character long after the `=`. */
  lemma InitializeTextShape(s: string, eol: char)
    requires eol != '/' && eol != '='
    ensures var r := InitializeText(s, eol);
      && |r| >= 1 && r[0] == '='
      && ' ' !in r
      && eol !in r
      && ((|r| >= 7 && UpperStr(r[1..7]) == "LAMBDA") || |r| <= 2)
  {
    var stripped := Strip(s, eol);
    var body := Compact(stripped, eol);
    var r := InitializeText(s, eol);
    StripFromNoBlank(s, 0, false, eol);
    CompactCount(stripped, eol, ' ');
    CountZero(stripped, ' ');
    CountZero(body, ' ');
    CountZero(body, eol);
    CountZero(r, ' ');
    CountZero(r, eol);
  }

  /** The cleaned text is `=` followed by the stripped and compacted
      input from its first LAMBDA on. */
  lemma InitializeTextCut(s: string, eol: char, p: nat)
    requires eol != '/'
    requires LambdaAt(Compact(Strip(s, eol), eol), p)
    requires forall q :: 0 <= q < p ==> !LambdaAt(Compact(Strip(s, eol), eol), q)
    ensures InitializeText(s, eol) == "=" + Compact(Strip(s, eol), eol)[p..]
  {
    FromLambdaCut(Compact(Strip(s, eol), eol), p);
  }

  /** Every character but the `=` comes from the input. */
  lemma InitializeTextCount(s: string, eol: char, c: char)
    requires eol != '/' && c != '='
    ensures Count(InitializeText(s, eol), c) <= Count(s, c)
  {
    var stripped := Strip(s, eol);
    StripFromCount(s, 0, false, eol, c);
    assert s[0..] == s;
    CompactCount(stripped, eol, c);
  }
}

=== FILE: scanner.dfy ===
/** The line-breaking pass (`breakArgs`, lines 232-284): every `(` outside
    a literal whose function name has a rule is rebuilt with its arguments
    trimmed and line breaks put where the rule asks, and the identifiers
    the rule names are collected; a name without a rule is only
    upper-cased. */
module Scanner {
  import opened Wrappers
  import opened Text
  import opened Options
  import opened Calls

  /** The loop's state: the text being rewritten, the two identifier lists
      and `isFirstLambda` (still waiting for the first LAMBDA). */
  datatype Scan = Scan(text: string, keys: seq<string>, firstKeys: seq<string>, pending: bool)

  // ---------- the name before a paren ----------

  /** `getFunctionName(text, i)?.toUpperCase().trim()`, with the source's
      falsy cases (`null` and `""`) as `None`. */
  function CallName(text: string, i: nat): (r: Option<string>)
    requires i <= |text|
    ensures r.Some? ==> r.value != [] && |r.value| < i
    ensures r.Some? ==> forall k :: i - |r.value| <= k < i ==> text[k] != '('
    ensures r.Some? ==> '(' !in r.value
  {
    match FunctionName(text, i)
    case None => None
    case Some(raw) =>
      var n := Trim(UpperStr(raw));
      if n == [] then None
      else
        NameHasNoParen(raw);
        Some(n)
  }

  lemma NameHasNoParen(raw: string)
    requires forall k :: 0 <= k < |raw| ==> raw[k] !in NameStops
    ensures '(' !in Trim(UpperStr(raw))
  {
    CountNone(UpperStr(raw), '(');
    TrimCount(UpperStr(raw), '(');
    CountZero(Trim(UpperStr(raw)), '(');
  }

  /** A name with no whitespace is, upper-cased, the call's name as it
      stands in the text right before the paren (which `FunctionName`
      places after a stop character); there is no name when it is empty. */
  lemma CallNameInPlace(text: string, i: nat)
    requires i <= |text|
    requires FunctionName(text, i).Some?
    requires forall k :: 0 <= k < i ==> !IsSpace(text[k])
    ensures var raw := FunctionName(text, i).value;
      CallName(text, i) == if raw == [] then None else Some(UpperStr(raw))
  {
    var raw := FunctionName(text, i).value;
    SliceNoSpace(text, i, raw);
    UpperTrimmed(raw);
  }

  /** A slice of a whitespace-free prefix is whitespace-free. */
  lemma SliceNoSpace(text: string, i: nat, raw: string)
    requires |raw| <= i <= |text| && raw == text[i - |raw|..i]
    requires forall k :: 0 <= k < i ==> !IsSpace(text[k])
    ensures forall k :: 0 <= k < |raw| ==> !IsSpace(raw[k])
  {
    forall k | 0 <= k < |raw| ensures !IsSpace(raw[k]) {
      assert raw[k] == text[i - |raw| + k];
    }
  }

  /** Upper-casing keeps a text free of whitespace, so trimming it changes nothing. */
  lemma UpperTrimmed(raw: string)
    requires forall k :: 0 <= k < |raw| ==> !IsSpace(raw[k])
    ensures Trim(UpperStr(raw)) == UpperStr(raw)
  {
    var u := UpperStr(raw);
    forall k | 0 <= k < |u| ensures !IsSpace(u[k]) {
      UpperKeepsNonSpace(raw[k]);
    }
    TrimKeeps(u);
  }

  // ---------- capturing and breaking arguments ----------

  /** The arguments from index `j` on that the rule's `variable` picks. */
  function SelectedFrom(rule: Rule, args: seq<string>, j: nat): (r: seq<string>)
    requires j <= |args|
    ensures |r| <= |args| - j
    decreases |args| - j
  {
    if j == |args| then []
    else (if rule.variable(j, |args|) then [args[j]] else []) + SelectedFrom(rule, args, j + 1)
  }

  /** The identifiers a call contributes, in argument order. */
  function Selected(rule: Rule, args: seq<string>): seq<string>
  {
    SelectedFrom(rule, args, 0)
  }

  /** LAMBDA captures every argument but the body. */
  lemma SelectedLambda(args: seq<string>)
    requires args != []
    ensures Selected(LambdaRule, args) == args[..|args| - 1]
  {
    SelectedLambdaFrom(args, 0);
  }

  lemma {:induction false} SelectedLambdaFrom(args: seq<string>, j: nat)
    requires j < |args|
    ensures SelectedFrom(LambdaRule, args, j) == args[j..|args| - 1]
    decreases |args| - j
  {
    if j < |args| - 1 {
      SelectedLambdaFrom(args, j + 1);
      assert args[j..|args| - 1] == [args[j]] + args[j + 1..|args| - 1];
    } else {
      assert SelectedFrom(LambdaRule, args, j + 1) == [];
    }
  }

  /** A rule that captures nothing adds no identifier. */
  lemma {:induction false} SelectedNone(rule: Rule, args: seq<string>, j: nat)
    requires j <= |args|
    requires forall k :: j <= k < |args| ==> !rule.variable(k, |args|)
    ensures SelectedFrom(rule, args, j) == []
    decreases |args| - j
  {
    if j < |args| {
      SelectedNone(rule, args, j + 1);
    }
  }

  /** Each argument, with the line terminator put before it when the
      rule's `breakRule` asks for one. */
  function Broken(rule: Rule, args: seq<string>, eol: char): (r: seq<string>)
    ensures |r| == |args|
    ensures forall j :: 0 <= j < |args| ==>
      r[j] == (if rule.breakRule(j, |args|) then [eol] + args[j] else args[j])
  {
    seq(|args|, j requires 0 <= j < |args| => if rule.breakRule(j, |args|) then [eol] + args[j] else args[j])
  }

  /** Some argument index from `j` on asks for a break (`isBreak`). */
  predicate AnyBreakFrom(rule: Rule, count: nat, j: nat)
    requires j <= count
    decreases count - j
  {
    j < count && (rule.breakRule(j, count) || AnyBreakFrom(rule, count, j + 1))
  }

  /** The rebuilt call span of lines 260-276. */
  function Rebuilt(rule: Rule, args: seq<string>, eol: char): (r: string)
    ensures |r| >= 2 && r[0] == '(' && r[|r| - 1] == ')'
  {
    "(" + Join(Broken(rule, args, eol), ",") + (if AnyBreakFrom(rule, |args|, 0) then [eol] else []) + ")"
  }

  lemma {:induction false} SumCountPointwise(xs: seq<string>, ys: seq<string>, c: char)
    requires |xs| == |ys|
    requires forall j :: 0 <= j < |xs| ==> Count(xs[j], c) == Count(ys[j], c)
    ensures SumCount(xs, c) == SumCount(ys, c)
  {
    if xs != [] {
      SumCountPointwise(xs[1..], ys[1..], c);
    }
  }

  /** The rebuilt span opens one paren of its own and otherwise holds the
      arguments' parens. */
  lemma RebuiltParens(rule: Rule, args: seq<string>, eol: char)
    requires eol != '('
    ensures Count(Rebuilt(rule, args, eol)[1..], '(') == SumCount(args, '(')
  {
    var parts := Broken(rule, args, eol);
    var tail: string := if AnyBreakFrom(rule, |args|, 0) then [eol] else [];
    var j := Join(parts, ",");
    BrokenParens(rule, args, eol);
    JoinParens(parts);
    assert Rebuilt(rule, args, eol) == "(" + j + tail + ")";
    DropOpen(j, tail);
    CountConcat(j, tail + ")", '(');
    CountZero(tail + ")", '(');
  }

  lemma DropOpen(j: string, tail: string)
    ensures ("(" + j + tail + ")")[1..] == j + (tail + ")")
  {
  }

  /** Joining with commas adds no paren. */
  lemma JoinParens(parts: seq<string>)
    ensures Count(Join(parts, ","), '(') == SumCount(parts, '(')
  {
    if parts != [] {
      JoinCount(parts, ",", '(');
      assert Count(",", '(') == 0;
    }
  }

  /** Putting line terminators before arguments adds no paren. */
  lemma BrokenParens(rule: Rule, args: seq<string>, eol: char)
    requires eol != '('
    ensures SumCount(Broken(rule, args, eol), '(') == SumCount(args, '(')
  {
    var parts := Broken(rule, args, eol);
    forall j | 0 <= j < |parts| ensures Count(parts[j], '(') == Count(args[j], '(') {
      if rule.breakRule(j, |args|) {
        CountConcat([eol], args[j], '(');
      }
    }
    SumCountPointwise(parts, args, '(');
  }

  lemma {:induction false} WithoutJoin(xs: seq<string>, ys: seq<string>, sep: string, c: char)
    requires |xs| == |ys|
    requires forall j :: 0 <= j < |xs| ==> Without(xs[j], c) == ys[j]
    requires c !in sep
    ensures Without(Join(xs, sep), c) == Join(ys, sep)
  {
    if |xs| == 1 {
    } else if |xs| > 1 {
      WithoutJoin(xs[1..], ys[1..], sep, c);
      WithoutConcat(xs[0] + sep, Join(xs[1..], sep), c);
      WithoutConcat(xs[0], sep, c);
      WithoutAbsent(sep, c);
    }
  }

  /** Deleting the line terminators from a rebuilt span leaves the
      arguments joined by commas between the parens. */
  lemma RebuiltWithoutBreaks(rule: Rule, args: seq<string>, eol: char)
    requires eol !in "(),"
    requires forall j :: 0 <= j < |args| ==> eol !in args[j]
    ensures Without(Rebuilt(rule, args, eol), eol) == "(" + Join(args, ",") + ")"
  {
    var parts := Broken(rule, args, eol);
    var tail := if AnyBreakFrom(rule, |args|, 0) then [eol] else [];
    BrokenWithout(rule, args, eol);
    WithoutJoin(parts, args, ",", eol);
    WithoutWrap(Join(parts, ","), tail, eol);
  }

  lemma WithoutWrap(j: string, tail: string, eol: char)
    requires tail == [] || tail == [eol]
    requires eol != '(' && eol != ')'
    ensures Without("(" + j + tail + ")", eol) == "(" + Without(j, eol) + ")"
  {
    var a := "(" + j;
    var b := tail + ")";
    assert "(" + j + tail + ")" == a + b;
    WithoutConcat(a, b, eol);
    WithoutConcat("(", j, eol);
    WithoutConcat(tail, ")", eol);
  }

  lemma BrokenWithout(rule: Rule, args: seq<string>, eol: char)
    requires forall j :: 0 <= j < |args| ==> eol !in args[j]
    ensures forall j :: 0 <= j < |args| ==> Without(Broken(rule, args, eol)[j], eol) == args[j]
  {
    var parts := Broken(rule, args, eol);
    forall j | 0 <= j < |parts| ensures Without(parts[j], eol) == args[j] {
      WithoutAbsent(args[j], eol);
      if rule.breakRule(j, |args|) {
        WithoutConcat([eol], args[j], eol);
      }
    }
  }

  /** The number of argument indices from `j` on that the rule breaks
      before. */
  function Breaks(rule: Rule, count: nat, j: nat): nat
    requires j <= count
    decreases count - j
  {
    if j == count then 0
    else (if rule.breakRule(j, count) then 1 else 0) + Breaks(rule, count, j + 1)
  }

  /** `isBreak` ends up set exactly when some index asks for a break. */
  lemma {:induction false} AnyBreakCounts(rule: Rule, count: nat, j: nat)
    requires j <= count
    ensures AnyBreakFrom(rule, count, j) <==> Breaks(rule, count, j) > 0
    decreases count - j
  {
    if j < count {
      AnyBreakCounts(rule, count, j + 1);
    }
  }

  /** From index `j` on, the broken arguments hold the arguments'
      terminators and one more per break. */
  lemma {:induction false} BrokenBreaksFrom(rule: Rule, args: seq<string>, eol: char, j: nat)
    requires j <= |args|
    ensures SumCount(Broken(rule, args, eol)[j..], eol) == SumCount(args[j..], eol) + Breaks(rule, |args|, j)
    decreases |args| - j
  {
    if j < |args| {
      var parts := Broken(rule, args, eol);
      BrokenBreaksFrom(rule, args, eol, j + 1);
      assert parts[j..][1..] == parts[j + 1..];
      assert args[j..][1..] == args[j + 1..];
      if rule.breakRule(j, |args|) {
        CountConcat([eol], args[j], eol);
      }
    }
  }

  /** The rebuilt span holds the arguments' terminators, one more per
      break, and one more before its `)` when there was any break. */
  lemma RebuiltBreaks(rule: Rule, args: seq<string>, eol: char)
    requires eol !in "(),"
    ensures var b := Breaks(rule, |args|, 0);
      Count(Rebuilt(rule, args, eol), eol) == SumCount(args, eol) + b + (if b > 0 then 1 else 0)
  {
    var j := Join(Broken(rule, args, eol), ",");
    var tail: string := if AnyBreakFrom(rule, |args|, 0) then [eol] else [];
    JoinBreaks(rule, args, eol);
    AnyBreakCounts(rule, |args|, 0);
    WrapCount(j, tail, eol);
  }

  /** Joining with commas adds no terminator. */
  lemma JoinBreaks(rule: Rule, args: seq<string>, eol: char)
    requires eol != ','
    ensures Count(Join(Broken(rule, args, eol), ","), eol) == SumCount(args, eol) + Breaks(rule, |args|, 0)
  {
    var parts := Broken(rule, args, eol);
    BrokenBreaksFrom(rule, args, eol, 0);
    assert parts[0..] == parts && args[0..] == args;
    if parts != [] {
      JoinCount(parts, ",", eol);
      assert Count(",", eol) == 0;
    }
  }

  /** The parens around a span add no terminator. */
  lemma WrapCount(j: string, tail: string, eol: char)
    requires eol != '(' && eol != ')'
    ensures Count("(" + j + tail + ")", eol) == Count(j, eol) + Count(tail, eol)
  {
    assert "(" + j + tail + ")" == ("(" + j) + (tail + ")");
    CountConcat("(" + j, tail + ")", eol);
    CountConcat("(", j, eol);
    CountConcat(tail, ")", eol);
  }

  /** A well-formed call span comes back out of the rebuild unchanged but
      for the inserted line terminators: its interior is non-empty, has no
      whitespace and no terminator, and does not end in a top-level comma. */
  lemma RebuildOnlyAddsBreaks(rule: Rule, value: string, eol: char)
    requires |value| >= 3 && value[0] == '(' && value[|value| - 1] == ')'
    requires forall k :: 0 <= k < |value| ==> !IsSpace(value[k]) && value[k] != eol
    requires !IsCut(value, |value| - 2)
    requires eol !in "(),"
    ensures Without(Rebuilt(rule, SplitArgs(value), eol), eol) == value
  {
    var args := SplitArgs(value);
    JoinSplitArgs(value);
    ArgsLack(value, eol);
    RebuiltWithoutBreaks(rule, args, eol);
    Wrapped(value);
  }

  /** A character the span lacks is in none of its arguments. */
  lemma ArgsLack(value: string, c: char)
    requires |value| >= 1
    requires forall k :: 0 <= k < |value| ==> value[k] != c
    ensures forall j :: 0 <= j < |SplitArgs(value)| ==> c !in SplitArgs(value)[j]
  {
    var args := SplitArgs(value);
    SplitArgsCount(value, c);
    CountNone(value[1..], c);
    forall j | 0 <= j < |args| ensures c !in args[j] {
      SumCountAt(args, j, c);
      CountZero(args[j], c);
    }
  }

  lemma Wrapped(value: string)
    requires |value| >= 2 && value[0] == '(' && value[|value| - 1] == ')'
    ensures value == "(" + value[1..|value| - 1] + ")"
  {
  }

  // ---------- one paren ----------

  /** The step at a `(` outside a literal: `None` when there is no name
      (the `continue` of line 244), otherwise the rewritten state. */
  function AtParen(cfg: Config, s: Scan, i: nat): (r: Option<Scan>)
    requires i < |s.text| && s.text[i] == '('
    ensures r.None? <==> CallName(s.text, i).None?
    ensures r.Some? ==> |r.value.text| > i && r.value.text[i] == '('
    ensures r.Some? ==> s.keys <= r.value.keys && s.firstKeys <= r.value.firstKeys
    ensures r.Some? ==> (r.value.pending ==> s.pending)
    ensures r.Some? && !s.pending ==> r.value.firstKeys == s.firstKeys
  {
    match CallName(s.text, i)
    case None => None
    case Some(n) =>
      match FindRule(cfg.argRules, n)
      case None => Some(Renamed(s, i, n))
      case Some(index) => Some(Reworked(cfg.eol, s, i, n, cfg.argRules[index]))
  }

  /** Lines 250-256: a name without a rule is written back upper-cased. */
  function Renamed(s: Scan, i: nat, n: string): (t: Scan)
    requires |n| <= i < |s.text|
    ensures |t.text| == |s.text| && t.text[i] == s.text[i]
    ensures t.keys == s.keys && t.firstKeys == s.firstKeys && t.pending == s.pending
  {
    s.(text := s.text[..i - |n|] + n + s.text[i..])
  }

  /** Lines 258-280: the call span is rebuilt and the identifiers the rule
      picks are captured. */
  function Reworked(eol: char, s: Scan, i: nat, n: string, rule: Rule): (t: Scan)
    requires |n| <= i < |s.text| && s.text[i] == '('
    ensures |t.text| > i && t.text[i] == '('
    ensures s.keys <= t.keys && s.firstKeys <= t.firstKeys
    ensures t.pending ==> s.pending
    ensures !s.pending ==> t.firstKeys == s.firstKeys
  {
    var value := FunctionValue(s.text, i);
    var args := SplitArgs(value);
    var caught := Selected(rule, args);
    var first := rule.name == "LAMBDA" && s.pending;
    Scan(
      s.text[..i - |n|] + n + Rebuilt(rule, args, eol) + s.text[i + |value|..],
      if first then s.keys else s.keys + caught,
      if first then s.firstKeys + caught else s.firstKeys,
      s.pending && rule.name != "LAMBDA")
  }

  /** A name without a rule is upper-cased where it stands and the rest of
      the text is left alone. */
  lemma AtParenUnknown(cfg: Config, s: Scan, i: nat)
    requires i < |s.text| && s.text[i] == '('
    requires CallName(s.text, i).Some?
    requires FindRule(cfg.argRules, CallName(s.text, i).value).None?
    ensures var n := CallName(s.text, i).value;
      var t := AtParen(cfg, s, i).value;
      && t.text[..i - |n|] == s.text[..i - |n|]
      && t.text[i - |n|..i] == n
      && t.text[i..] == s.text[i..]
      && t.keys == s.keys && t.firstKeys == s.firstKeys && t.pending == s.pending
  {
    var n := CallName(s.text, i).value;
    assert AtParen(cfg, s, i).value == Renamed(s, i, n);
  }

  /** `t` is `s` with the `|n|` characters before `i` written as `n` and
      the span `value` at `i` replaced by `span`; everything else is kept. */
  predicate Spliced(s: string, t: string, i: nat, n: string, value: string, span: string)
  {
    && |n| <= i && i + |value| <= |s| && i + |span| <= |t|
    && t[..i - |n|] == s[..i - |n|]
    && t[i - |n|..i] == n
    && t[i..i + |span|] == span
    && t[i + |span|..] == s[i + |value|..]
  }

  /** The identifiers `caught` are appended to `firstKeys` when `first`
      holds and to `keys` otherwise; the other list is kept. */
  predicate Captured(s: Scan, t: Scan, first: bool, caught: seq<string>)
  {
    if first then t.firstKeys == s.firstKeys + caught && t.keys == s.keys
    else t.keys == s.keys + caught && t.firstKeys == s.firstKeys
  }

  /** A name with a rule: the text before the name and after the call's
      span is kept, the span is rebuilt, and the identifiers the rule picks
      go to `firstKeys` for the first LAMBDA when LAMBDA skipping is on and
      to `keys` otherwise. */
  lemma AtParenRule(cfg: Config, s: Scan, i: nat)
    requires i < |s.text| && s.text[i] == '('
    requires CallName(s.text, i).Some?
    requires FindRule(cfg.argRules, CallName(s.text, i).value).Some?
    ensures var n := CallName(s.text, i).value;
      var rule := cfg.argRules[FindRule(cfg.argRules, n).value];
      var value := FunctionValue(s.text, i);
      var t := AtParen(cfg, s, i).value;
      && rule.name == n
      && Spliced(s.text, t.text, i, n, value, Rebuilt(rule, SplitArgs(value), cfg.eol))
      && Captured(s, t, n == "LAMBDA" && s.pending, Selected(rule, SplitArgs(value)))
  {
    var n := CallName(s.text, i).value;
    var rule := cfg.argRules[FindRule(cfg.argRules, n).value];
    var t := Reworked(cfg.eol, s, i, n, rule);
    assert AtParen(cfg, s, i).value == t;
    ReworkedShape(cfg.eol, s, i, n, rule);
  }

  lemma ReworkedShape(eol: char, s: Scan, i: nat, n: string, rule: Rule)
    requires |n| <= i < |s.text| && s.text[i] == '('
    ensures var value := FunctionValue(s.text, i);
      var t := Reworked(eol, s, i, n, rule);
      && Spliced(s.text, t.text, i, n, value, Rebuilt(rule, SplitArgs(value), eol))
      && Captured(s, t, rule.name == "LAMBDA" && s.pending, Selected(rule, SplitArgs(value)))
  {
    var value := FunctionValue(s.text, i);
    var span := Rebuilt(rule, SplitArgs(value), eol);
    var t := Reworked(eol, s, i, n, rule);
    assert t.text == s.text[..i - |n|] + n + span + s.text[i + |value|..];
  }

  /** Each rewrite keeps the parens before `i` and leaves fewer parens from
      `i + 1` on than there were from `i` on: the scan ends. */
  lemma AtParenShrinks(cfg: Config, s: Scan, i: nat)
    requires i < |s.text| && s.text[i] == '('
    requires cfg.eol != '('
    requires CallName(s.text, i).Some?
    ensures AtParen(cfg, s, i).Some?
    ensures var t := AtParen(cfg, s, i).value.text;
      && Count(t[..i], '(') == Count(s.text[..i], '(')
      && Count(t[i + 1..], '(') < Count(s.text[i..], '(')
  {
    var n := CallName(s.text, i).value;
    if FindRule(cfg.argRules, n).None? {
      assert AtParen(cfg, s, i).value == Renamed(s, i, n);
      RenamedShrinks(s.text, i, n);
    } else {
      var rule := cfg.argRules[FindRule(cfg.argRules, n).value];
      assert AtParen(cfg, s, i).value == Reworked(cfg.eol, s, i, n, rule);
      ReworkedShrinks(cfg.eol, s, i, n, rule);
    }
  }

  lemma RenamedShrinks(text: string, i: nat, n: string)
    requires |n| <= i < |text| && text[i] == '('
    requires '(' !in n
    requires forall k :: i - |n| <= k < i ==> text[k] != '('
    ensures var t := text[..i - |n|] + n + text[i..];
      && Count(t[..i], '(') == Count(text[..i], '(')
      && Count(t[i + 1..], '(') < Count(text[i..], '(')
  {
    var t := text[..i - |n|] + n + text[i..];
    assert text[i..] == "(" + text[i + 1..];
    assert t == text[..i - |n|] + n + "(" + text[i + 1..];
    SpliceShrinks(text, i, n, "(", 1, t);
  }

  lemma ReworkedShrinks(eol: char, s: Scan, i: nat, n: string, rule: Rule)
    requires |n| <= i < |s.text| && s.text[i] == '('
    requires eol != '('
    requires '(' !in n
    requires forall k :: i - |n| <= k < i ==> s.text[k] != '('
    ensures var t := Reworked(eol, s, i, n, rule).text;
      && Count(t[..i], '(') == Count(s.text[..i], '(')
      && Count(t[i + 1..], '(') < Count(s.text[i..], '(')
  {
    var t := Reworked(eol, s, i, n, rule).text;
    var value := FunctionValue(s.text, i);
    var args := SplitArgs(value);
    var span := Rebuilt(rule, args, eol);
    assert t == s.text[..i - |n|] + n + span + s.text[i + |value|..];
    RebuiltParens(rule, args, eol);
    SplitArgsCount(value, '(');
    assert value[1..] == s.text[i + 1..i + |value|];
    SpliceShrinks(s.text, i, n, span, |value|, t);
  }

  /** Writing `n` over the name and `span` over the `vlen` characters from
      the paren on keeps the parens before `i` and, when the span holds no
      more parens than what it replaces, removes the one at `i`. */
  lemma SpliceShrinks(text: string, i: nat, n: string, span: string, vlen: nat, t: string)
    requires |n| <= i < |text| && 1 <= vlen && i + vlen <= |text| && text[i] == '('
    requires '(' !in n
    requires forall k :: i - |n| <= k < i ==> text[k] != '('
    requires span != [] && span[0] == '('
    requires Count(span[1..], '(') <= Count(text[i + 1..i + vlen], '(')
    requires t == text[..i - |n|] + n + span + text[i + vlen..]
    ensures Count(t[..i], '(') == Count(text[..i], '(')
    ensures Count(t[i + 1..], '(') < Count(text[i..], '(')
  {
    SpliceBefore(text, i, n, span, vlen, t);
    SpliceAfter(text, i, n, span, vlen, t);
  }

  lemma SpliceBefore(text: string, i: nat, n: string, span: string, vlen: nat, t: string)
    requires |n| <= i < |text| && i + vlen <= |text|
    requires '(' !in n
    requires forall k :: i - |n| <= k < i ==> text[k] != '('
    requires t == text[..i - |n|] + n + span + text[i + vlen..]
    ensures Count(t[..i], '(') == Count(text[..i], '(')
  {
    var head := text[..i - |n|];
    assert t[..i] == head + n;
    assert text[..i] == head + text[i - |n|..i];
    SameParens(head, n, text[i - |n|..i]);
  }

  lemma SpliceAfter(text: string, i: nat, n: string, span: string, vlen: nat, t: string)
    requires |n| <= i < |text| && 1 <= vlen && i + vlen <= |text| && text[i] == '('
    requires span != [] && span[0] == '('
    requires Count(span[1..], '(') <= Count(text[i + 1..i + vlen], '(')
    requires t == text[..i - |n|] + n + span + text[i + vlen..]
    ensures Count(t[i + 1..], '(') < Count(text[i..], '(')
  {
    var rest := text[i + vlen..];
    var was := text[i + 1..i + vlen];
    assert t[i + 1..] == span[1..] + rest;
    assert text[i..] == "(" + was + rest;
    FewerParens(span[1..], was, rest);
  }

  lemma SameParens(head: string, a: string, b: string)
    requires '(' !in a
    requires forall k :: 0 <= k < |b| ==> b[k] != '('
    ensures Count(head + a, '(') == Count(head + b, '(')
  {
    CountConcat(head, a, '(');
    CountConcat(head, b, '(');
    CountZero(a, '(');
    CountNone(b, '(');
  }

  lemma FewerParens(inner: string, was: string, rest: string)
    requires Count(inner, '(') <= Count(was, '(')
    ensures Count(inner + rest, '(') < Count("(" + was + rest, '(')
  {
    CountConcat(inner, rest, '(');
    CountConcat("(" + was, rest, '(');
    CountConcat("(", was, '(');
  }

  // ---------- the loop ----------

  /** The `for` loop of lines 238-281 from position `i` with in-literal
      flag `lit`; after a rewrite the scan goes on at `i + 1`, inside the
      rebuilt span. */
  function BreakFrom(cfg: Config, s: Scan, i: nat, lit: bool): Scan
    requires cfg.eol != '('
    requires i <= |s.text|
    decreases Count(s.text[i..], '('), |s.text| - i
  {
    if i == |s.text| then s
    else
      var c := s.text[i];
      var lit' := Toggle(c, lit);
      StepCount(s.text, i);
      if lit' || c != '(' then BreakFrom(cfg, s, i + 1, lit')
      else match AtParen(cfg, s, i)
        case None => BreakFrom(cfg, s, i + 1, lit')
        case Some(t) =>
          AtParenShrinks(cfg, s, i);
          BreakFrom(cfg, t, i + 1, lit')
  }

  lemma StepCount(text: string, i: nat)
    requires i < |text|
    ensures Count(text[i + 1..], '(') <= Count(text[i..], '(')
    ensures text[i] == '(' ==> Count(text[i + 1..], '(') < Count(text[i..], '(')
  {
    assert text[i..][1..] == text[i + 1..];
  }

  /** `breakArgs(text, [], [])` as called at line 285. */
  function BreakArgs(cfg: Config, text: string): Scan
    requires cfg.eol != '('
  {
    BreakFrom(cfg, Scan(text, [], [], cfg.skipFirstLambda), 0, false)
  }

  // ---------- properties of the loop ----------

  /** Identifier lists only grow, and `firstKeys` only while the first
      LAMBDA is still awaited. */
  lemma {:induction false} BreakFromKeys(cfg: Config, s: Scan, i: nat, lit: bool)
    requires cfg.eol != '('
    requires i <= |s.text|
    ensures s.keys <= BreakFrom(cfg, s, i, lit).keys
    ensures s.firstKeys <= BreakFrom(cfg, s, i, lit).firstKeys
    ensures !s.pending ==> BreakFrom(cfg, s, i, lit).firstKeys == s.firstKeys
    decreases Count(s.text[i..], '('), |s.text| - i
  {
    if i < |s.text| {
      var lit' := Toggle(s.text[i], lit);
      StepCount(s.text, i);
      if lit' || s.text[i] != '(' {
        BreakFromKeys(cfg, s, i + 1, lit');
      } else if AtParen(cfg, s, i).None? {
        BreakFromKeys(cfg, s, i + 1, lit');
      } else {
        var t := AtParen(cfg, s, i).value;
        AtParenShrinks(cfg, s, i);
        BreakFromKeys(cfg, t, i + 1, lit');
      }
    }
  }

  /** Without LAMBDA skipping nothing is collected into `firstKeys`. */
  lemma NoSkipNoFirstKeys(cfg: Config, text: string)
    requires cfg.eol != '(' && !cfg.skipFirstLambda
    ensures BreakArgs(cfg, text).firstKeys == []
  {
    BreakFromKeys(cfg, Scan(text, [], [], false), 0, false);
  }

  /** The pass never adds a paren: the number of `(` can only fall. */
  lemma {:induction false} BreakFromParens(cfg: Config, s: Scan, i: nat, lit: bool)
    requires cfg.eol != '('
    requires i <= |s.text|
    ensures Count(BreakFrom(cfg, s, i, lit).text, '(') <= Count(s.text, '(')
    decreases Count(s.text[i..], '('), |s.text| - i
  {
    if i < |s.text| {
      var lit' := Toggle(s.text[i], lit);
      StepCount(s.text, i);
      if lit' || s.text[i] != '(' {
        BreakFromParens(cfg, s, i + 1, lit');
      } else if AtParen(cfg, s, i).None? {
        BreakFromParens(cfg, s, i + 1, lit');
      } else {
        var t := AtParen(cfg, s, i).value;
        AtParenShrinks(cfg, s, i);
        BreakFromParens(cfg, t, i + 1, lit');
        CountSplit(t.text, i, '(');
        CountSplit(s.text, i, '(');
        StepCount(t.text, i);
      }
    }
  }

  lemma BreakArgsParens(cfg: Config, text: string)
    requires cfg.eol != '('
    ensures Count(BreakArgs(cfg, text).text, '(') <= Count(text, '(')
  {
    BreakFromParens(cfg, Scan(text, [], [], cfg.skipFirstLambda), 0, false);
  }

  /** A text with no `(` from `i` on comes back as it went in. */
  lemma {:induction false} BreakFromNoParen(cfg: Config, s: Scan, i: nat, lit: bool)
    requires cfg.eol != '('
    requires i <= |s.text|
    requires '(' !in s.text[i..]
    ensures BreakFrom(cfg, s, i, lit) == s
    decreases |s.text| - i
  {
    if i < |s.text| {
      assert s.text[i] == s.text[i..][0];
      assert s.text[i + 1..] == s.text[i..][1..];
      BreakFromNoParen(cfg, s, i + 1, Toggle(s.text[i], lit));
    }
  }

  /** Text without calls passes through untouched and yields no identifiers. */
  lemma BreakArgsNoCalls(cfg: Config, text: string)
    requires cfg.eol != '('
    requires '(' !in text
    ensures BreakArgs(cfg, text) == Scan(text, [], [], cfg.skipFirstLambda)
  {
    assert text[0..] == text;
    BreakFromNoParen(cfg, Scan(text, [], [], cfg.skipFirstLambda), 0, false);
  }
}

=== FILE: spacing.dfy ===
/** The spacing pass (`insertSpaces`, lines 326-351): outside literals the
    first spacing key whose `from` text starts at the current position is
    replaced by its `to` text. */
module Spacing {
  import opened Wrappers
  import opened Text
  import opened Options

  /** No key has an empty `from`; with one, the source's loop would not
      advance. */
  predicate NonEmptyFroms(keys: seq<SpacingKey>)
  {
    forall k :: 0 <= k < |keys| ==> keys[k].from != []
  }

  /** `spacingKeys.find(...)` at position `i`, as an index, searching from
      key `k` on. */
  function FirstKeyFrom(keys: seq<SpacingKey>, text: string, i: nat, k: nat): (r: Option<nat>)
    requires i <= |text| && k <= |keys|
    ensures r.Some? ==> r.value < |keys| && |keys[r.value].from| <= |text| - i
    decreases |keys| - k
  {
    if k == |keys| then None
    else if IsPrefix(keys[k].from, text[i..]) then Some(k)
    else FirstKeyFrom(keys, text, i, k + 1)
  }

  function FirstKey(keys: seq<SpacingKey>, text: string, i: nat): (r: Option<nat>)
    requires i <= |text|
    ensures r.Some? ==> r.value < |keys| && |keys[r.value].from| <= |text| - i
  {
    FirstKeyFrom(keys, text, i, 0)
  }

  /** The key found is the first one whose `from` text starts at `i`; with
      none found, no key's does. */
  lemma {:induction false} FirstKeyFromLeast(keys: seq<SpacingKey>, text: string, i: nat, k: nat)
    requires i <= |text| && k <= |keys|
    ensures var r := FirstKeyFrom(keys, text, i, k);
      && (r.Some? ==> k <= r.value && IsPrefix(keys[r.value].from, text[i..]))
      && (r.Some? ==> forall j :: k <= j < r.value ==> !IsPrefix(keys[j].from, text[i..]))
      && (r.None? ==> forall j :: k <= j < |keys| ==> !IsPrefix(keys[j].from, text[i..]))
    decreases |keys| - k
  {
    if k < |keys| && !IsPrefix(keys[k].from, text[i..]) {
      FirstKeyFromLeast(keys, text, i, k + 1);
    }
  }

  lemma FirstKeyLeast(keys: seq<SpacingKey>, text: string, i: nat)
    requires i <= |text|
    ensures FirstKey(keys, text, i).Some? ==>
      IsPrefix(keys[FirstKey(keys, text, i).value].from, text[i..])
    ensures FirstKey(keys, text, i).Some? ==>
      forall j :: 0 <= j < FirstKey(keys, text, i).value ==> !IsPrefix(keys[j].from, text[i..])
    ensures FirstKey(keys, text, i).None? ==>
      forall j :: 0 <= j < |keys| ==> !IsPrefix(keys[j].from, text[i..])
  {
    FirstKeyFromLeast(keys, text, i, 0);
  }

  /** One pass of the loop body of lines 332-347 at position `i`: the text
      emitted and how far the position moves. Inside a literal, or where no
      key matches, one character is copied. */
  function Step(text: string, i: nat, lit: bool, keys: seq<SpacingKey>): (r: (string, nat))
    requires NonEmptyFroms(keys)
    requires i < |text|
    ensures 1 <= r.1 && i + r.1 <= |text|
  {
    match FirstKey(keys, text, i)
    case Some(k) =>
      if Toggle(text[i], lit) then ([text[i]], 1) else (keys[k].to, |keys[k].from|)
    case None => ([text[i]], 1)
  }

  /** The loop of lines 331-348 from position `i` with in-literal flag `lit`. */
  function SpaceFrom(text: string, i: nat, lit: bool, keys: seq<SpacingKey>): string
    requires NonEmptyFroms(keys)
    requires i <= |text|
    decreases |text| - i
  {
    if i == |text| then []
    else
      var (out, n) := Step(text, i, lit, keys);
      out + SpaceFrom(text, i + n, Toggle(text[i], lit), keys)
  }

  /** `insertSpaces(text)`. */
  function InsertSpaces(text: string, keys: seq<SpacingKey>): string
    requires NonEmptyFroms(keys)
  {
    SpaceFrom(text, 0, false, keys)
  }

  /** With no keys the text is copied. */
  lemma {:induction false} NoKeysCopy(text: string, i: nat, lit: bool)
    requires i <= |text|
    ensures SpaceFrom(text, i, lit, []) == text[i..]
    decreases |text| - i
  {
    if i < |text| {
      NoKeysCopy(text, i + 1, Toggle(text[i], lit));
      assert text[i..] == [text[i]] + text[i + 1..];
    }
  }

  /** Inside a literal, up to the next quote, every character is copied. */
  lemma {:induction false} LiteralCopied(text: string, i: nat, j: nat, keys: seq<SpacingKey>)
    requires NonEmptyFroms(keys)
    requires i <= j <= |text|
    requires forall k :: i <= k < j ==> text[k] != Quote
    ensures SpaceFrom(text, i, true, keys) == text[i..j] + SpaceFrom(text, j, true, keys)
    decreases j - i
  {
    if i < j {
      LiteralCopied(text, i + 1, j, keys);
      SpaceFromStep(text, i, true, keys);
      SliceCons(text, i, j);
      Reassociate([text[i]], text[i + 1..j], SpaceFrom(text, j, true, keys));
    }
  }

  /** `text[i..j]` is its first character followed by the rest. */
  lemma SliceCons(text: string, i: nat, j: nat)
    requires i < j <= |text|
    ensures text[i..j] == [text[i]] + text[i + 1..j]
  {
  }

  lemma Reassociate(a: string, b: string, c: string)
    ensures a + (b + c) == (a + b) + c
  {
  }

  /** A key that only adds blanks around its `from` text. */
  predicate PadOnly(key: SpacingKey)
  {
    Without(key.to, ' ') == Without(key.from, ' ')
  }

  /** Every key of the list only adds blanks. */
  predicate AllPadOnly(keys: seq<SpacingKey>)
  {
    forall k :: 0 <= k < |keys| ==> PadOnly(keys[k])
  }

  /** `AllPadOnly`, key by key from the front; the induction over the text
      below carries this form. */
  predicate PadOnlyList(keys: seq<SpacingKey>)
  {
    keys == [] || (PadOnly(keys[0]) && PadOnlyList(keys[1..]))
  }

  lemma {:induction false} PadOnlyListAt(keys: seq<SpacingKey>)
    ensures PadOnlyList(keys) <==> AllPadOnly(keys)
  {
    if keys != [] {
      PadOnlyListAt(keys[1..]);
      assert forall k :: 1 <= k < |keys| ==> keys[k] == keys[1..][k - 1];
    }
  }

  /** With keys that only add blanks, one step emits the characters it
      consumes and at most some blanks. */
  lemma StepOnlyAddsBlanks(text: string, i: nat, lit: bool, keys: seq<SpacingKey>)
    requires NonEmptyFroms(keys) && PadOnlyList(keys)
    requires i < |text|
    ensures Without(Step(text, i, lit, keys).0, ' ')
         == Without(text[i..i + Step(text, i, lit, keys).1], ' ')
  {
    match FirstKey(keys, text, i)
    case Some(k) =>
      if !Toggle(text[i], lit) {
        FirstKeyLeast(keys, text, i);
        PadOnlyListAt(keys);
        assert PadOnly(keys[k]);
        assert text[i..i + |keys[k].from|] == keys[k].from;
      }
    case None =>
  }

  /** With keys that only add blanks, spacing changes nothing but blanks. */
  lemma {:induction false} SpacingOnlyAddsBlanks(text: string, i: nat, lit: bool, keys: seq<SpacingKey>)
    requires NonEmptyFroms(keys) && PadOnlyList(keys)
    requires i <= |text|
    ensures Without(SpaceFrom(text, i, lit, keys), ' ') == Without(text[i..], ' ')
    decreases |text| - i
  {
    if i < |text| {
      var out := Step(text, i, lit, keys).0;
      var j: nat := i + Step(text, i, lit, keys).1;
      var lit' := Toggle(text[i], lit);
      var rest := SpaceFrom(text, j, lit', keys);
      SpacingOnlyAddsBlanks(text, j, lit', keys);
      StepOnlyAddsBlanks(text, i, lit, keys);
      SpaceFromStep(text, i, lit, keys);
      SliceSplit(text, i, j);
      GlueBlankFree(out, rest, text[i..j], text[j..]);
    }
  }

  /** The loop emits the step's text and goes on after it. */
  lemma SpaceFromStep(text: string, i: nat, lit: bool, keys: seq<SpacingKey>)
    requires NonEmptyFroms(keys)
    requires i < |text|
    ensures SpaceFrom(text, i, lit, keys)
         == Step(text, i, lit, keys).0
            + SpaceFrom(text, i + Step(text, i, lit, keys).1, Toggle(text[i], lit), keys)
  {
  }

  /** Texts equal up to blanks, glued together, stay equal up to blanks. */
  lemma GlueBlankFree(x: string, y: string, u: string, v: string)
    requires Without(x, ' ') == Without(u, ' ') && Without(y, ' ') == Without(v, ' ')
    ensures Without(x + y, ' ') == Without(u + v, ' ')
  {
    WithoutConcat(x, y, ' ');
    WithoutConcat(u, v, ' ');
  }

  lemma InsertSpacesOnlyAddsBlanks(text: string, keys: seq<SpacingKey>)
    requires NonEmptyFroms(keys) && AllPadOnly(keys)
    ensures Without(InsertSpaces(text, keys), ' ') == Without(text, ' ')
  {
    PadOnlyListAt(keys);
    SpacingOnlyAddsBlanks(text, 0, false, keys);
    assert text[0..] == text;
  }

  /** The default keys only add blanks and have non-empty `from` texts. */
  lemma DefaultKeysPadOnly()
    ensures NonEmptyFroms(DefaultSpacingKeys)
    ensures AllPadOnly(DefaultSpacingKeys)
  {
    KeysPadOnly(DefaultSpacingKeys);
  }

  lemma KeysPadOnly(keys: seq<SpacingKey>)
    requires keys == DefaultSpacingKeys
    ensures NonEmptyFroms(keys) && AllPadOnly(keys)
  {
    forall k | 0 <= k < |keys| ensures PadOnly(keys[k]) && keys[k].from != [] {
      if k == 0 {
        FirstKeyPadOnly();
      } else if k == 22 {
        LastKeyPadOnly();
      } else {
        MiddleKey(k);
        BlankAround(keys[k].from);
      }
    }
  }

  lemma FirstKeyPadOnly()
    ensures PadOnly(DefaultSpacingKeys[0]) && DefaultSpacingKeys[0].from != []
  {
    var key := DefaultSpacingKeys[0];
    assert key == SpacingKey("=" + "LAMBDA", "=" + " " + "LAMBDA");
    BlankBetween("=", "LAMBDA");
  }

  lemma LastKeyPadOnly()
    ensures |DefaultSpacingKeys| == 23
    ensures PadOnly(DefaultSpacingKeys[22]) && DefaultSpacingKeys[22].from != []
  {
    var key := DefaultSpacingKeys[22];
    assert key == SpacingKey("," + "", "," + " " + "");
    BlankBetween(",", "");
  }

  /** The keys between the first and the last are blank-free texts put
      between two blanks. */
  lemma MiddleKey(k: nat)
    requires 1 <= k < 22
    ensures DefaultSpacingKeys[k] == Around(DefaultSpacingKeys[k].from)
    ensures DefaultSpacingKeys[k].from != [] && ' ' !in DefaultSpacingKeys[k].from
  {
  }

  lemma BlankBetween(a: string, b: string)
    requires ' ' !in a && ' ' !in b
    ensures PadOnly(SpacingKey(a + b, a + " " + b))
  {
    DropMiddle(a, b);
    WithoutAbsent(a + b, ' ');
  }

  lemma DropMiddle(a: string, b: string)
    ensures Without(a + " " + b, ' ') == Without(a + b, ' ')
  {
    WithoutConcat(a + " ", b, ' ');
    WithoutConcat(a, " ", ' ');
    WithoutConcat(a, b, ' ');
  }

  lemma BlankAround(f: string)
    requires ' ' !in f
    ensures PadOnly(Around(f))
  {
    WithoutConcat(" " + f, " ", ' ');
    WithoutConcat(" ", f, ' ');
    WithoutAbsent(f, ' ');
  }
}

=== FILE: text.dfy ===
/** Character and string helpers shared by every stage of the optimizer:
    ASCII case mapping, the whitespace set of `String.prototype.trim`,
    counting, splitting and joining on a separator, and first-match search. */
module Text {
  import opened Wrappers

  /** `toUpperCase` restricted to ASCII: only `a`..`z` change. */
  function Upper(c: char): char
  {
    if 'a' <= c <= 'z' then (c as int - 32) as char else c
  }

  function UpperStr(s: string): (r: string)
    ensures |r| == |s|
    ensures forall k :: 0 <= k < |s| ==> r[k] == Upper(s[k])
  {
    seq(|s|, k requires 0 <= k < |s| => Upper(s[k]))
  }

  /** The ASCII members of the set of characters `trim` removes. */
  predicate IsSpace(c: char)
  {
    c == ' ' || c == '\t' || c == '\n' || c == '\r' || c as int == 11 || c as int == 12
  }

  lemma UpperKeepsNonSpace(c: char)
    ensures IsSpace(Upper(c)) == IsSpace(c)
    ensures Upper(Upper(c)) == Upper(c)
  {
  }

  /** The quote character that toggles the in-literal state of every scanner. */
  const Quote: char := '"'

  /** The in-literal flag after a scanner has looked at `c`. */
  function Toggle(c: char, inLiteral: bool): bool
  {
    if c == Quote then !inLiteral else inLiteral
  }

  // ---------- counting ----------

  /** The number of occurrences of `c` in `s`. */
  function Count(s: string, c: char): nat
  {
    if s == [] then 0 else (if s[0] == c then 1 else 0) + Count(s[1..], c)
  }

  lemma {:induction false} CountConcat(a: string, b: string, c: char)
    ensures Count(a + b, c) == Count(a, c) + Count(b, c)
  {
    if a == [] {
      assert a + b == b;
    } else {
      assert (a + b)[1..] == a[1..] + b;
      CountConcat(a[1..], b, c);
    }
  }

  lemma CountSplit(s: string, k: nat, c: char)
    requires k <= |s|
    ensures Count(s, c) == Count(s[..k], c) + Count(s[k..], c)
  {
    assert s == s[..k] + s[k..];
    CountConcat(s[..k], s[k..], c);
  }

  lemma {:induction false} CountNone(s: string, c: char)
    requires forall k :: 0 <= k < |s| ==> s[k] != c
    ensures Count(s, c) == 0
  {
    if s != [] {
      CountNone(s[1..], c);
    }
  }

  lemma {:induction false} CountZero(s: string, c: char)
    ensures Count(s, c) == 0 <==> c !in s
  {
    if s != [] {
      CountZero(s[1..], c);
      assert c in s <==> s[0] == c || c in s[1..];
    }
  }

  /** Sum of `Count(x, c)` over the strings `xs`. */
  function SumCount(xs: seq<string>, c: char): nat
  {
    if xs == [] then 0 else Count(xs[0], c) + SumCount(xs[1..], c)
  }

  lemma {:induction false} SumCountAppend(xs: seq<string>, ys: seq<string>, c: char)
    ensures SumCount(xs + ys, c) == SumCount(xs, c) + SumCount(ys, c)
  {
    if xs == [] {
      assert xs + ys == ys;
    } else {
      assert (xs + ys)[1..] == xs[1..] + ys;
      SumCountAppend(xs[1..], ys, c);
    }
  }

  lemma {:induction false} SumCountAt(xs: seq<string>, j: nat, c: char)
    requires j < |xs|
    ensures Count(xs[j], c) <= SumCount(xs, c)
  {
    if j > 0 {
      SumCountAt(xs[1..], j - 1, c);
    }
  }

  // ---------- trimming ----------

  /** The length of the whitespace run at the start of `s`. */
  function LeadSpaces(s: string): (n: nat)
    ensures n <= |s|
  {
    if s != [] && IsSpace(s[0]) then 1 + LeadSpaces(s[1..]) else 0
  }

  /** The length of the whitespace run at the end of `s`. */
  function TrailSpaces(s: string): (n: nat)
    ensures n <= |s|
  {
    if s != [] && IsSpace(s[|s| - 1]) then 1 + TrailSpaces(s[..|s| - 1]) else 0
  }

  lemma {:induction false} LeadSpacesRun(s: string)
    ensures forall k :: 0 <= k < LeadSpaces(s) ==> IsSpace(s[k])
    ensures LeadSpaces(s) < |s| ==> !IsSpace(s[LeadSpaces(s)])
  {
    if s != [] && IsSpace(s[0]) {
      LeadSpacesRun(s[1..]);
    }
  }

  lemma {:induction false} TrailSpacesRun(s: string)
    ensures forall k :: |s| - TrailSpaces(s) <= k < |s| ==> IsSpace(s[k])
    ensures TrailSpaces(s) < |s| ==> !IsSpace(s[|s| - 1 - TrailSpaces(s)])
  {
    if s != [] && IsSpace(s[|s| - 1]) {
      TrailSpacesRun(s[..|s| - 1]);
    }
  }

  /** `String.prototype.trim`: drops the whitespace run at each end. */
  function Trim(s: string): (r: string)
    ensures |r| <= |s|
  {
    var a := LeadSpaces(s);
    s[a..|s| - TrailSpaces(s[a..])]
  }

  /** A trimmed text neither starts nor ends with whitespace. */
  lemma TrimEnds(s: string)
    ensures Trim(s) == [] || (!IsSpace(Trim(s)[0]) && !IsSpace(Trim(s)[|Trim(s)| - 1]))
  {
    var a := LeadSpaces(s);
    var t := s[a..];
    LeadSpacesRun(s);
    TrailSpacesRun(t);
    assert Trim(s) == t[..|t| - TrailSpaces(t)];
  }

  /** Trimming removes only whitespace. */
  lemma TrimCount(s: string, c: char)
    ensures Count(Trim(s), c) <= Count(s, c)
    ensures !IsSpace(c) ==> Count(Trim(s), c) == Count(s, c)
  {
    var a := LeadSpaces(s);
    var t := s[a..];
    var b := |t| - TrailSpaces(t);
    LeadSpacesRun(s);
    TrailSpacesRun(t);
    CountSplit(s, a, c);
    CountSplit(t, b, c);
    assert Trim(s) == t[..b];
    if !IsSpace(c) {
      CountNone(s[..a], c);
      CountNone(t[b..], c);
    }
  }

  /** A text without whitespace is its own trim; one that does not end in
      whitespace keeps its tail. */
  lemma TrimKeeps(s: string)
    ensures (forall k :: 0 <= k < |s| ==> !IsSpace(s[k])) ==> Trim(s) == s
    ensures |s| > 0 && !IsSpace(s[|s| - 1]) ==> Trim(s) == s[|s| - |Trim(s)|..]
  {
    var a := LeadSpaces(s);
    var t := s[a..];
    LeadSpacesRun(s);
    if |s| > 0 && !IsSpace(s[|s| - 1]) {
      assert a < |s|;
      assert t[|t| - 1] == s[|s| - 1];
      assert TrailSpaces(t) == 0;
    }
  }

  // ---------- joining and splitting ----------

  /** `Array.prototype.join(sep)`. */
  function Join(parts: seq<string>, sep: string): string
  {
    if |parts| == 0 then []
    else if |parts| == 1 then parts[0]
    else parts[0] + sep + Join(parts[1..], sep)
  }

  lemma {:induction false} JoinCount(parts: seq<string>, sep: string, c: char)
    requires |parts| >= 1
    ensures Count(Join(parts, sep), c) == SumCount(parts, c) + (|parts| - 1) * Count(sep, c)
  {
    if |parts| > 1 {
      var rest := parts[1..];
      var k := Count(sep, c);
      JoinCount(rest, sep, c);
      CountConcat(parts[0] + sep, Join(rest, sep), c);
      CountConcat(parts[0], sep, c);
      assert (|parts| - 1) * k == (|rest| - 1) * k + k;
    }
  }

  /** Index of the first `c` in `s`, or `|s|` when there is none
      (`indexOf`, with -1 read as "end of text"). */
  function FindChar(s: string, c: char): (p: nat)
    ensures p <= |s|
    ensures forall k :: 0 <= k < p ==> s[k] != c
    ensures p < |s| ==> s[p] == c
  {
    if s == [] || s[0] == c then 0 else 1 + FindChar(s[1..], c)
  }

  /** `String.prototype.split(sep)` for a one-character separator. */
  function Split(s: string, sep: char): (r: seq<string>)
    ensures |r| == Count(s, sep) + 1
    ensures forall k :: 0 <= k < |r| ==> sep !in r[k]
    ensures Join(r, [sep]) == s
    decreases |s|
  {
    var p := FindChar(s, sep);
    if p == |s| then
      CountNone(s, sep);
      [s]
    else
      var rest := Split(s[p + 1..], sep);
      CountSplit(s, p, sep);
      CountNone(s[..p], sep);
      assert s[p..] == [sep] + s[p + 1..];
      assert ([s[..p]] + rest)[1..] == rest;
      assert s == s[..p] + [sep] + s[p + 1..];
      [s[..p]] + rest
  }

  /** Splitting a join on a separator none of the parts contains gives the parts back. */
  lemma {:induction false} SplitJoin(parts: seq<string>, sep: char)
    requires |parts| >= 1
    requires forall k :: 0 <= k < |parts| ==> sep !in parts[k]
    ensures Split(Join(parts, [sep]), sep) == parts
  {
    var s := Join(parts, [sep]);
    var x := parts[0];
    if |parts| == 1 {
      assert FindChar(s, sep) == |s|;
    } else {
      var rest := parts[1..];
      var j := Join(rest, [sep]);
      assert s == x + [sep] + j;
      SplitJoin(rest, sep);
      SplitCons(x, sep, j);
      assert parts == [x] + rest;
    }
  }

  /** A suffix is the slice up to `j` followed by the suffix from `j`. */
  lemma SliceSplit(text: string, i: nat, j: nat)
    requires i <= j <= |text|
    ensures text[i..] == text[i..j] + text[j..]
  {
  }

  /** The first piece ends at the first separator. */
  lemma SplitCons(x: string, sep: char, rest: string)
    requires sep !in x
    ensures Split(x + [sep] + rest, sep) == [x] + Split(rest, sep)
  {
    var s := x + [sep] + rest;
    assert s[|x|] == sep;
    assert forall k :: 0 <= k < |x| ==> s[k] == x[k];
    assert FindChar(s, sep) == |x|;
    assert s[..|x|] == x;
    assert s[|x| + 1..] == rest;
  }

  function TrimAll(xs: seq<string>): (r: seq<string>)
    ensures |r| == |xs|
    ensures forall k :: 0 <= k < |xs| ==> r[k] == Trim(xs[k])
  {
    seq(|xs|, k requires 0 <= k < |xs| => Trim(xs[k]))
  }

  lemma {:induction false} TrimAllCount(xs: seq<string>, c: char)
    ensures SumCount(TrimAll(xs), c) <= SumCount(xs, c)
    ensures !IsSpace(c) ==> SumCount(TrimAll(xs), c) == SumCount(xs, c)
  {
    if xs != [] {
      TrimAllCount(xs[1..], c);
      TrimCount(xs[0], c);
      assert TrimAll(xs) == [Trim(xs[0])] + TrimAll(xs[1..]);
    }
  }

  lemma TrimAllKeeps(xs: seq<string>)
    requires forall j, k :: 0 <= j < |xs| && 0 <= k < |xs[j]| ==> !IsSpace(xs[j][k])
    ensures TrimAll(xs) == xs
  {
    forall j | 0 <= j < |xs| ensures Trim(xs[j]) == xs[j] {
      TrimKeeps(xs[j]);
    }
  }

  /** `filter(Boolean)` on strings: keeps the non-empty ones, in order. */
  function NonEmpty(xs: seq<string>): (r: seq<string>)
    ensures forall k :: 0 <= k < |r| ==> r[k] != []
    ensures forall c :: SumCount(r, c) == SumCount(xs, c)
  {
    if xs == [] then []
    else if xs[0] == [] then NonEmpty(xs[1..])
    else [xs[0]] + NonEmpty(xs[1..])
  }

  /** Spaces(n) is `" ".repeat(n)`. */
  function Spaces(n: nat): (r: string)
    ensures |r| == n
    ensures forall k :: 0 <= k < n ==> r[k] == ' '
  {
    seq(n, _ => ' ')
  }

  /** `s` with every occurrence of `c` removed. */
  function Without(s: string, c: char): string
  {
    if s == [] then [] else (if s[0] == c then [] else [s[0]]) + Without(s[1..], c)
  }

  /** Every occurrence is gone, and nothing else is. */
  lemma {:induction false} WithoutRemoves(s: string, c: char, d: char)
    ensures Count(Without(s, c), c) == 0
    ensures d != c ==> Count(Without(s, c), d) == Count(s, d)
  {
    if s != [] {
      WithoutRemoves(s[1..], c, d);
      CountConcat(if s[0] == c then [] else [s[0]], Without(s[1..], c), c);
      CountConcat(if s[0] == c then [] else [s[0]], Without(s[1..], c), d);
    }
  }

  lemma {:induction false} WithoutConcat(a: string, b: string, c: char)
    ensures Without(a + b, c) == Without(a, c) + Without(b, c)
  {
    if a == [] {
      assert a + b == b;
    } else {
      assert (a + b)[1..] == a[1..] + b;
      WithoutConcat(a[1..], b, c);
    }
  }

  lemma {:induction false} WithoutAbsent(s: string, c: char)
    requires c !in s
    ensures Without(s, c) == s
  {
    if s != [] {
      WithoutAbsent(s[1..], c);
    }
  }

  // ---------- first-match search ----------

  predicate IsPrefix(p: string, s: string)
  {
    |p| <= |s| && s[..|p|] == p
  }

  /** `Array.prototype.find` / `findIndex`: the least index whose element satisfies `p`. */
  function FirstWhere<T>(xs: seq<T>, p: T -> bool): (r: Option<nat>)
    ensures r.Some? ==> r.value < |xs| && p(xs[r.value])
    ensures r.Some? ==> forall k :: 0 <= k < r.value ==> !p(xs[k])
    ensures r.None? ==> forall k :: 0 <= k < |xs| ==> !p(xs[k])
  {
    if xs == [] then None
    else if p(xs[0]) then Some(0)
    else match FirstWhere(xs[1..], p)
      case None => None
      case Some(k) => Some(k + 1)
  }

  /** `indexOf(pat)` on a string: a position at which `pat` occurs (the
      least one, by `FindSubLeast`). */
  function FindSub(s: string, pat: string): (r: Option<nat>)
    ensures r.Some? ==> r.value + |pat| <= |s| && s[r.value..r.value + |pat|] == pat
    decreases |s|
  {
    if IsPrefix(pat, s) then Some(0)
    else if s == [] then None
    else match FindSub(s[1..], pat)
      case None => None
      case Some(k) =>
        assert s[k + 1..k + 1 + |pat|] == s[1..][k..k + |pat|];
        Some(k + 1)
  }

  /** No earlier position holds `pat`, and none at all when the search
      fails. */
  lemma {:induction false} FindSubLeast(s: string, pat: string)
    ensures FindSub(s, pat).Some? ==>
      forall k :: 0 <= k < FindSub(s, pat).value ==> !IsPrefix(pat, s[k..])
    ensures FindSub(s, pat).None? ==> forall k :: 0 <= k <= |s| ==> !IsPrefix(pat, s[k..])
    decreases |s|
  {
    if !IsPrefix(pat, s) && s != [] {
      FindSubLeast(s[1..], pat);
      assert forall k :: 1 <= k <= |s| ==> s[k..] == s[1..][k - 1..];
    }
  }

  /** A position holding `pat` with none before it is the one found. */
  lemma FindSubFirst(s: string, pat: string, p: nat)
    requires p <= |s| && IsPrefix(pat, s[p..])
    requires forall q :: 0 <= q < p ==> !IsPrefix(pat, s[q..])
    ensures FindSub(s, pat) == Some(p)
  {
    FindSubLeast(s, pat);
    var f := FindSub(s, pat).value;
    assert s[f..][..|pat|] == s[f..f + |pat|];
  }
}

=== FILE: wrappers.dfy ===
/** The optional-value datatype used for the source's `null`, `-1` and
    "never returns" outcomes. */
module Wrappers {

  datatype Option<+T> = None | Some(value: T) {

    /** Returns the encapsulated value, or `default` when there is none. */
    function GetOr(default: T): T
    {
      match this
      case Some(v) => v
      case None => default
    }
  }
}
